=== FILE: README.md ===
# tienda-admin: a Dafny model of the admin console's logic

The tienda-admin console is a React front end for a shop's product catalogue. This project models the decision logic in its handlers and services as pure Dafny functions over immutable data:

- **The product form's image set** (`ImageSet`). It covers three lists:
  - the visible thumbnails (`imagenesPreviews`);
  - the files to upload (`imagenesFiles`);
  - the stored file names queued for deletion (`imagenesAEliminar`).

  The lists change through four steps: hydrating them from the stored image URLs, adding picked files, removing a thumbnail, and the filter applied to the uploads on save.
- **The rest of the product form** (`ProductForm`). This covers:
  - the initial record;
  - loading a product for editing;
  - field and category edits;
  - the save button: name validation, the service call it makes, and how its outcome is reported.
- **The product REST client** (`ProductService`). This covers:
  - the `Bearer` header;
  - the multipart bodies of `createProduct`, `createProductWithImages`, `updateProductWithImages` and `updateProduct`;
  - the request every other service sends;
  - the rule that turns a failed request into the value the service throws.
- **The login service** (`AuthService`): how the settled POST to `/api/login` becomes a token or an error message.
- **The authentication provider** (`AuthContext`): the session derived from the stored token, `login`, `logout`, `isAuthenticated` and the loading gate.
- **The product list** (`ProductList`). This covers:
  - the list load;
  - deletion;
  - the blank-query rule of search;
  - the price and stock filters with their defaults and the empty-result rule;
  - resetting the filters;
  - the stock badge and the count label.

Each handler is one atomic step. It maps the state as it was when the event fired, together with the outcomes of the requests the handler awaits, to the state it leaves.

A small JavaScript layer (`Js`) gives these steps their meaning. It covers truthiness, `String(v)`, property reads that throw on `null` or `undefined`, object spread with key order kept, `String.prototype.trim` over the ECMAScript white-space set, and `split('/').pop()`. `Browser` holds files and form entries. `Http` holds an axios outcome.

## Model

| member | source | states |
|---|---|---|
| Js.Member | src/services/authService.js:14 | reading a property fails exactly on null or undefined; on an object it yields the stored value or undefined |
| Js.Lookup | src/services/productService.js:110-112 | a missing key reads as undefined; a present key reads a value stored under it |
| Js.SetProp | src/components/ProductForm.jsx:128-131 | an existing key keeps its position; a new key goes last |
| Js.SetPropReads | src/components/ProductForm.jsx:128-131 | after a spread update the key reads the new value, and every other key reads what it read before |
| Js.SetPropKeepsUnique | src/components/ProductForm.jsx:140-144 | a spread update never gives an object two entries for one key |
| Js.SetPropKeepsOthers | src/components/ProductForm.jsx:195-199 | a spread update changes what no other key reads |
| Js.LookupUnique | src/components/ProductForm.jsx:55-66 | in an object with each key once, every key reads the value stored beside it |
| Js.Trim | src/components/ProductForm.jsx:186 | the trimmed text is no longer than the input and starts and ends with a non-white-space character |
| Js.LeadingSpaces | src/components/ProductForm.jsx:186 | the count covers white space only and stops at the first other character |
| Js.TrailingSpaces | src/components/ProductForm.jsx:186 | the count covers white space only and stops at the last other character |
| Js.TrimIsInfix | src/components/ProductList.jsx:51 | the trimmed text is an infix of the input, with only white space on either side |
| Js.TrimEmptyIffBlank | src/components/ProductList.jsx:51 | trimming gives the empty string exactly when the input is all white space |
| Js.LastSegment | src/components/ProductForm.jsx:95 | the file name is a `/`-free suffix of the URL, preceded by `/` whenever it is not the whole URL |
| Js.LastSegmentIsLongestPlainSuffix | src/components/ProductForm.jsx:69 | no longer `/`-free suffix exists, so the name is everything after the last `/` |
| Js.LastSegmentOfPlainName | src/components/ProductForm.jsx:95 | a URL without `/` is its own file name |
| Js.IntToString | src/services/authService.js:22 | a numeral is non-empty, and it starts with `-` exactly for negative numbers |
| Js.IntToStringRoundTrip | src/services/authService.js:22 | an interpolated status reads back as the same integer |
| Js.IntToStringInjective | src/components/ProductList.jsx:250 | different counts print differently |
| ProductService.Rethrown | src/services/productService.js:132 | a failed call throws the response body when there is a truthy one, else the axios message |
| ProductService.Settle | src/services/productService.js:52-59 | a service returns the body exactly when the request succeeded; it never throws null or undefined |
| ProductService.Bearer | src/services/productService.js:7-13 | the header is `Bearer ` followed by the stored token, or by `null` when none is stored |
| ProductService.BearerInjective | src/services/productService.js:11 | different stored tokens give different headers |
| ProductService.BearerMissingTokenLooksLikeNull | src/services/productService.js:8-11 | a missing token sends the same header as the stored text `null` |
| ProductService.MultipartHeaders | src/services/productService.js:163-166 | exactly two headers: the `Bearer` authorization header, then the multipart content type |
| ProductService.AuthHeaders | src/services/productService.js:7-13 | the one header is the same `Bearer` authorization header the multipart requests send first, and no `Content-Type` is set |
| ProductService.GetProductsRequest | src/services/productService.js:43-50 | a GET of the public products URL with no parameters, headers or body |
| ProductService.SearchProductsRequest | src/services/productService.js:61-70 | a GET of the public search URL with the query as its only parameter, `term` |
| ProductService.FilterByPriceRequest | src/services/productService.js:71-80 | a GET of the public price filter URL with parameters `min` then `max` |
| ProductService.FilterByStockRequest | src/services/productService.js:82-91 | a GET of the public stock filter URL with the minimum as its only parameter, `stock` |
| ProductService.EntryKeysAppend | src/services/productService.js:110-117 | the keys of consecutive appends are the keys of each part in order |
| ProductService.AttachmentsAppend | src/services/productService.js:115-117 | the files of consecutive appends are the files of each part in order |
| ProductService.FieldEntries | src/services/productService.js:110-112 | one text entry per record key, in iteration order, holding `String` of its value |
| ProductService.ImageEntries | src/services/productService.js:115-117 | one `imagenes` entry per file, in list order |
| ProductService.FieldEntriesCarryNoFile | src/services/productService.js:110-112 | record fields never carry a file |
| ProductService.ImageEntriesCarryFiles | src/services/productService.js:115-117 | the image entries carry exactly the given files, in order |
| ProductService.GenericBody | src/services/productService.js:227-234 | every record field in iteration order, then one `imagenes` entry per file |
| ProductService.GenericBodyAttachments | src/services/productService.js:195-202 | a generic body carries exactly the given files, in order, whatever the record holds |
| ProductService.CreateProductRequest | src/services/productService.js:104-128 | a multipart POST to the admin `con-imagenes` endpoint carrying the generic body |
| ProductService.CreateProductWithImagesRequest | src/services/productService.js:189-213 | sends exactly what `createProduct` sends |
| ProductService.UpdateProductWithImagesRequest | src/services/productService.js:221-245 | a multipart PUT to the public products URL carrying the generic body |
| ProductService.ScalarEntries | src/services/productService.js:141-147 | one text entry per listed key, in list order, holding `String` of the record's value |
| ProductService.OfferEntries | src/services/productService.js:149-152 | the two offer entries, as text, exactly when `en_oferta` is truthy; none otherwise |
| ProductService.UpdateBody | src/services/productService.js:140-157 | the scalar entries first, then the offer entries, then one `imagenes` entry per file, nothing else |
| ProductService.UpdateBodyKeySequence | src/services/productService.js:141-157 | the seven scalar keys in fixed order, both offer keys exactly when `en_oferta` is truthy, then one `imagenes` per file |
| ProductService.UpdateBodyValues | src/services/productService.js:141-151 | the scalar entries hold the stringified fields; the offer entries hold `'true'` and the discount |
| ProductService.UpdateBodyKeyAt | src/services/productService.js:141-157 | every key is a scalar key, an offer key when on offer, or `imagenes`; never `categoria_id` |
| ProductService.UpdateKeyGroupsApart | src/services/productService.js:141-156 | the scalar keys, the offer keys and `imagenes` never coincide, and none is `categoria_id` |
| ProductService.UpdateBodyOmitsCategory | src/services/productService.js:141-147 | `updateProduct` never sends `categoria_id` |
| ProductService.UpdateBodyKnownKeys | src/services/productService.js:141-157 | no key outside the fixed list and `imagenes` is sent |
| ProductService.UpdateBodyOfferKeys | src/services/productService.js:149-152 | the offer keys are present exactly when `en_oferta` is truthy |
| ProductService.UpdateBodyAttachments | src/services/productService.js:155-157 | the body carries exactly the given files, after all scalar fields |
| ProductService.ScalarsCarryNoFile | src/services/productService.js:141-147 | scalar fields never carry a file |
| ProductService.UpdateProductRequest | src/services/productService.js:135-168 | a multipart PUT to the admin product URL whose body is the fixed field list, the offer block when `en_oferta` is truthy, then exactly the given files |
| ProductService.UpdateEndpointsDiffer | src/services/productService.js:237 | the two update services reach different URLs for the same id |
| ProductService.DeleteProductRequest | src/services/productService.js:176-181 | a DELETE to the admin product URL with only the authorization header and no body |
| AuthService.ServerError | src/services/authService.js:22 | the default message is the fixed prefix, the status numeral, then `)` |
| AuthService.ServerErrorInjective | src/services/authService.js:22 | the status can be read back from the default message |
| AuthService.DefaultMessagesDistinct | src/services/authService.js:17-28 | the four default messages are pairwise different |
| AuthService.ErrorText | src/services/authService.js:20 | the server's `error` text when truthy, else the default |
| AuthService.ReadOfNothing | src/services/authService.js:20-22 | the TypeError message for reading `error` off a `null` or `undefined` body, one text for each |
| AuthService.ReadOfNothingNotDefault | src/services/authService.js:17-28 | that TypeError message is none of the four default messages |
| AuthService.Login | src/services/authService.js:6-29 | token or access token on success; for a rejection, the server text or the status default, the escaping TypeError when the error body is `null` or `undefined`, no response, or a setup failure |
| AuthService.LoginTokenIffSuccess | src/services/authService.js:14 | a token comes back exactly when the request succeeded with a readable body |
| AuthService.LoginFailuresDistinguishable | src/services/authService.js:17-28 | whenever the body can be read and has no truthy `error` text, equal messages mean the same case: 401, the same other status, no response, or setup |
| AuthService.UnreadableErrorBodyHidesStatus | src/services/authService.js:17-23 | with a `null` or `undefined` error body any two statuses end in the same TypeError message |
| AuthService.NullBody401Like500 | src/services/authService.js:19-23 | a 401 and a 500 with a `null` body both fail with "Cannot read properties of null (reading 'error')" |
| AuthContext.UserValue | src/context/AuthContext.jsx:18-31 | `currentUser` is `null` exactly when no user is held; a user object carries its token and, after a login, its username |
| AuthContext.IsAuthenticated | src/context/AuthContext.jsx:50 | signed in exactly when a user object is held |
| AuthContext.Rendered | src/context/AuthContext.jsx:57 | the children while not loading, otherwise `false`, which renders nothing |
| AuthContext.RenderedChildrenIffNotLoading | src/context/AuthContext.jsx:57 | the children are rendered exactly when loading is over |
| AuthContext.Mounted | src/context/AuthContext.jsx:9-10 | nobody is signed in and the children are held back while loading |
| AuthContext.Restore | src/context/AuthContext.jsx:14-21 | a truthy stored token signs the user back in; loading ends either way |
| AuthContext.Initialize | src/context/AuthContext.jsx:14-21 | authenticated after mount exactly when storage holds a non-empty token |
| AuthContext.LoginStarted | src/context/AuthContext.jsx:24-25 | loading starts and the previous error is cleared |
| AuthContext.LoginSettled | src/context/AuthContext.jsx:28-38 | success stores the token and signs the user in; failure records the message and changes neither storage nor user |
| AuthContext.Login | src/context/AuthContext.jsx:23-39 | true leaves an authenticated session with no error; false leaves user and storage as they were |
| AuthContext.Logout | src/context/AuthContext.jsx:41-44 | the token is removed and nobody is authenticated |
| AuthContext.StepsKeepInSync | src/context/AuthContext.jsx:30-31 | the signed-in token always matches the stored text |
| AuthContext.ReloadAfterLogin | src/context/AuthContext.jsx:30 | a reload after login signs in again exactly when the stored text is non-empty, even for an undefined token |
| AuthContext.ReloadAfterLogout | src/context/AuthContext.jsx:42 | a reload after logout finds nobody signed in |
| ProductList.LoadProducts | src/components/ProductList.jsx:26-36 | a fetched list replaces the products; a failure only records the error |
| ProductList.Initial | src/components/ProductList.jsx:12-20 | no products, no error, empty query and filters, loading shown |
| ProductList.FirstLoad | src/components/ProductList.jsx:22-36 | the mount load ends loading with the fetched list, or with an empty list and the load error |
| ProductList.WithoutId | src/components/ProductList.jsx:42 | exactly the products with another id remain |
| ProductList.WithoutIdAppend | src/components/ProductList.jsx:42 | deletion keeps the relative order of the remaining products |
| ProductList.WithoutIdCounts | src/components/ProductList.jsx:42 | every product with the id goes; every other one stays as often as it was listed |
| ProductList.HandleDelete | src/components/ProductList.jsx:38-47 | nothing happens without confirmation; a confirmed delete drops the product or records the error |
| ProductList.DeleteRequestFor | src/components/ProductList.jsx:41 | a confirmed delete sends a DELETE to the admin URL ending in the id's numeral, with only the authorization header and no body |
| ProductList.DeleteRequestsDiffer | src/components/ProductList.jsx:38-42 | deleting two different ids reaches two different URLs |
| ProductList.SearchRequest | src/components/ProductList.jsx:51-58 | a blank query fetches the full list; any other query is searched as typed |
| ProductList.HandleSearch | src/components/ProductList.jsx:49-65 | a blank query reloads; otherwise results replace the list or the error reports the thrown message |
| ProductList.MessageOf | src/components/ProductList.jsx:62 | an object's `message` as text; a thrown string has none and reads `undefined` |
| ProductList.SearchNetworkFailureShowsUndefined | src/components/ProductList.jsx:56-63 | a search that gets no response reports the prefix followed by `undefined` |
| ProductList.FilterRequest | src/components/ProductList.jsx:72-90 | price needs a bound and defaults the other to 0 or 1000000; stock needs a minimum; anything else loads everything |
| ProductList.HandleFilter | src/components/ProductList.jsx:67-103 | a non-empty result replaces the list; an empty or skipped result keeps it and reports nothing found |
| ProductList.HandleResetFilters | src/components/ProductList.jsx:105-108 | the three inputs are cleared and the list reloaded |
| ProductList.StockBadge | src/components/ProductList.jsx:304-308 | green above 20, yellow above 5 up to 20, red otherwise |
| ProductList.StockBadgeMonotone | src/components/ProductList.jsx:304-308 | more stock never gives a more alarming badge |
| ProductList.CountLabel | src/components/ProductList.jsx:250 | the label starts with the count's numeral followed by a space |
| ProductList.CountLabelMeaning | src/components/ProductList.jsx:250 | the numeral reads back as the count, and the noun is singular exactly for one product |
| ImageSet.FetchedFiles | src/components/ProductForm.jsx:73 | at most one rebuilt file per stored URL |
| ImageSet.FetchedFileOrigin | src/components/ProductForm.jsx:68-73 | every rebuilt file is the file built from some successful fetch: its contents, named after that URL's last segment |
| ImageSet.FetchedFilesAppend | src/components/ProductForm.jsx:73 | rebuilt files keep URL order |
| ImageSet.FetchedFilesAllSucceed | src/components/ProductForm.jsx:68-75 | when every fetch succeeds, file i is the image of URL i, named by its last segment |
| ImageSet.FetchedFilesAllFail | src/components/ProductForm.jsx:73 | when every fetch fails, nothing is rebuilt |
| ImageSet.StoredImages | src/components/ProductForm.jsx:92-96 | one stored image per URL, in URL order, named by what follows the URL's last `/` |
| ImageSet.RebuiltMatchesStored | src/components/ProductForm.jsx:35-39 | a rebuilt file holds the fetched contents under the stored image's `/`-free name |
| ImageSet.StoredPreviews | src/components/ProductForm.jsx:101-105 | one stored thumbnail per stored image, in order |
| ImageSet.Hydrate | src/components/ProductForm.jsx:67-106 | no URLs change nothing; otherwise one stored thumbnail per URL in order, the fetched files, and the deletion queue untouched |
| ImageSet.HydrateOne | src/components/ProductForm.jsx:67-106 | one fetched URL gives one stored thumbnail, its file, and an empty deletion queue |
| ImageSet.HandleImageChange | src/components/ProductForm.jsx:147-159 | one new thumbnail and one file per picked file, after everything already there, in selection order |
| ImageSet.WithoutName | src/components/ProductForm.jsx:176-178 | exactly the files with another name remain |
| ImageSet.WithoutNameAppend | src/components/ProductForm.jsx:176-178 | dropping a name keeps the relative order of the other files |
| ImageSet.WithoutNameCounts | src/components/ProductForm.jsx:176-178 | every file of that name goes; every other file stays as often as it was held |
| ImageSet.RemoveAt | src/components/ProductForm.jsx:170-171 | exactly the element at the index goes; the others keep their order |
| ImageSet.RemoveImage | src/components/ProductForm.jsx:161-180 | the thumbnail goes; a stored one queues its name and keeps the files; a picked one drops every file of its name |
| ImageSet.Apply | src/components/ProductForm.jsx:147-180 | an add grows thumbnails and files by the picked count; an in-range remove drops one thumbnail and queues at most one name; an out-of-range remove changes nothing |
| ImageSet.Includes | src/components/ProductForm.jsx:204 | a list of names includes a value exactly when it is one of those names as text; a number is never included |
| ImageSet.KeepUnlistedIndices | src/components/ProductForm.jsx:203-205 | the index filter keeps only files it was given, never more of them |
| ImageSet.KeepUnlistedIndicesKeepsAll | src/components/ProductForm.jsx:203-205 | no position is ever listed among the names, so every file is kept |
| ImageSet.UploadBatch | src/components/ProductForm.jsx:203-205 | the upload list holds only held files, never more of them |
| ImageSet.UploadBatchKeepsEverything | src/components/ProductForm.jsx:203-205 | the submit filter as written returns the files unchanged |
| ImageSet.IntendedUploadBatch | src/components/ProductForm.jsx:201-205 | the corrected filter keeps exactly the files whose name is not queued for deletion |
| ImageSet.IntendedUploadBatchAppend | src/components/ProductForm.jsx:203-205 | the corrected filter keeps upload order |
| ImageSet.StoredNamesAppend | src/components/ProductForm.jsx:170-171 | the stored names of consecutive thumbnails are those of each part in order |
| ImageSet.NewPreviewsHaveNoStoredName | src/components/ProductForm.jsx:151-155 | picked thumbnails never count as stored images |
| ImageSet.StoredPreviewNames | src/components/ProductForm.jsx:101-105 | the hydrated thumbnails carry the stored names in order |
| ImageSet.HydratedNames | src/components/ProductForm.jsx:95 | one name per hydrated URL |
| ImageSet.HydrateAccounts | src/components/ProductForm.jsx:92-105 | after hydration every stored image is shown exactly once and none is queued |
| ImageSet.ImageChangeKeepsAccount | src/components/ProductForm.jsx:147-159 | adding files neither shows nor queues a stored image |
| ImageSet.RemoveKeepsAccount | src/components/ProductForm.jsx:161-180 | removing a thumbnail moves a stored image from shown to queued, or leaves the stored images alone |
| ImageSet.RunKeepsAccount | src/components/ProductForm.jsx:147-180 | after any adds and removes each stored image is shown or queued exactly once, and the queue names only stored images |
| ImageSet.RemovingStoredNeverShrinksUploads | src/components/ProductForm.jsx:164-175 | removing a stored thumbnail changes no file, so the save still uploads every file |
| ImageSet.DeletedImageIsReuploaded | src/components/ProductForm.jsx:203-210 | a removed stored image is queued for deletion and still uploaded; the corrected filter uploads nothing |
| ImageSet.DeletedImageIsReuploadedExample | src/components/ProductForm.jsx:203-210 | `a.jpg`, removed before saving, is sent again |
| ImageSet.RemovingPickedOrphansNamesakes | src/components/ProductForm.jsx:175-178 | removing one of two same-named picked files leaves the other thumbnail on screen with no file behind it |
| ProductForm.ProductKeysDistinct | src/components/ProductForm.jsx:23-34 | the form declares each field once |
| ProductForm.Record | src/components/ProductForm.jsx:23-34 | the record has exactly the given keys, in order, each with its value |
| ProductForm.FormRecordUnique | src/components/ProductForm.jsx:23-34 | a record over the form's fields has each field once |
| ProductForm.Initial | src/components/ProductForm.jsx:15-34 | the default record over the ten form fields, each once; no categories, subcategories or images; the spinner shows exactly when editing |
| ProductForm.FormRecordReads | src/components/ProductForm.jsx:23-34 | each form field of a record reads the value given for it |
| ProductForm.InitialDefaults | src/components/ProductForm.jsx:23-34 | the fresh record reads empty texts, zero price, stock and discount, `Nuevo`, `Adultos`, and not on offer |
| ProductForm.CopiedValues | src/components/ProductForm.jsx:55-66 | one value per form field, in declared order, each read from the fetched product |
| ProductForm.FindFirst | src/components/ProductForm.jsx:136 | the index found is the first match; none means no category matches |
| ProductForm.FindFirstFindsFirst | src/components/ProductForm.jsx:136 | whenever a first match exists, it is the one found |
| ProductForm.LoadData | src/components/ProductForm.jsx:45-121 | a failed or unreadable fetch reports the load error; an edit copies the fields, hydrates the images and takes the subcategories of the first category with the parsed id; loading ends |
| ProductForm.LoadSubcategoriesOfFirstMatch | src/components/ProductForm.jsx:107-113 | the choices loaded are those of the first category whose id is the parsed `categoria_id` |
| ProductForm.LoadSubcategoriesWithoutMatch | src/components/ProductForm.jsx:107-113 | without a category, or with no listed category of that id, the choices stay as they were |
| ProductForm.HandleChange | src/components/ProductForm.jsx:126-132 | a checkbox stores its checked state, any other input its value; nothing else in the form changes |
| ProductForm.HandleChangeTouchesOneField | src/components/ProductForm.jsx:128-131 | every other field keeps its value |
| ProductForm.HandleCategoriaChange | src/components/ProductForm.jsx:134-145 | the category is stored as chosen and the subcategory cleared; the field order is kept and nothing else changes |
| ProductForm.CategoriaChangeWithoutMatch | src/components/ProductForm.jsx:136-138 | no loosely equal category leaves no subcategory to pick |
| ProductForm.CategoriaChangeFirstMatch | src/components/ProductForm.jsx:136-138 | the choices are those of the first category the chosen value loosely equals |
| ProductForm.CategoriaChangeKeepsOtherFields | src/components/ProductForm.jsx:140-144 | fields other than category and subcategory keep their values |
| ProductForm.ProductData | src/components/ProductForm.jsx:195-199 | category and subcategory are converted with `Number`; every other field reads as before; the keys keep their order |
| ProductForm.HandleSubmit | src/components/ProductForm.jsx:182-214 | a call is made exactly when the name is a non-blank string; a blank name only sets the error; editing updates and otherwise creates |
| ProductForm.FreshFormNeedsName | src/components/ProductForm.jsx:185-189 | saving an untouched form only sets the name error and makes no call |
| ProductForm.SubmitSendsEveryHeldFile | src/components/ProductForm.jsx:201-213 | with a valid name, both save paths make a call that sends every held file, queued deletions included |
| ProductForm.CallRequest | src/components/ProductForm.jsx:207-213 | a create posts to the admin endpoint, an edit puts to the public one, each carrying exactly the call's files |
| ProductForm.EditReuploadsRemovedImage | src/components/ProductForm.jsx:201-211 | after removing a stored image and saving an edit, its name is queued and its file still travels in the request |
| ProductForm.SubmitSettled | src/components/ProductForm.jsx:216-222 | success navigates to the list; failure reports `message` or the JSON of the thrown value; loading stops |
| ProductForm.NetworkFailureShowsEncodedMessage | src/components/ProductForm.jsx:218 | a failure with no response shows the JSON encoding of the axios message |
| ProductForm.LoadKeepsUniqueKeys | src/components/ProductForm.jsx:55-66 | loading leaves a record with one value per field |
| ProductForm.ChangeKeepsUniqueKeys | src/components/ProductForm.jsx:128-131 | a field edit never gives the record two values for one field |
| ProductForm.CategoriaChangeKeepsUniqueKeys | src/components/ProductForm.jsx:140-144 | a category change never gives the record two values for one field |
| ProductForm.ProductDataKeepsUniqueKeys | src/components/ProductForm.jsx:195-199 | the data sent on save has one value per field |

## Left out

- Network and browser I/O are left out: axios, `fetch`/`blob`, `localStorage`, `window.confirm` and `URL.createObjectURL`. Each request's outcome is an input value (`Http.Outcome`), and so is each image fetch (`ImageSet.Fetch`). The token cell is an `Option<string>`, confirmation is a boolean, and object URLs are opaque strings.
- React scheduling is left out. Each handler is one atomic step on the state it captured. The three successive preview updates during hydration collapse to the last one. The separate `setLoading(true)` at the start of each list handler is folded into its settled state.
- The JSON body of a loaded product is modelled without arrays. The image URLs of the product being edited arrive as the `fetches` argument of `ProductForm.LoadData`, not as a field of the product value.
- `Number(...)`, `parseInt(...)`, loose `==` and `JSON.stringify` are not encoded. They are parameters of `ProductForm.ProductData`, `ProductForm.LoadData`, `ProductForm.HandleCategoriaChange` and `ProductForm.SubmitSettled`. `NaN` is not a value of the model.
- Numbers are integers. The floating-point price and discount display is not modelled.
- Only the strict equality of primitive values is modelled. Objects are compared structurally, not by identity.
- The public read-only services `getProductsBySubcategory`, `getProductsByCategory` and `getOfertas` are left out. They follow the same error rule as `ProductService.Settle` and no screen in this model uses them.
- The screens outside the core are left out: Dashboard, Login, Navbar, ProductDetail and the router in App.js. They render and navigate only.
- ImageSet.RemoveImage: requires an index in range. An out-of-range index reads a property of `undefined` and throws before any update. `ImageSet.Apply` models that case as leaving the set unchanged.
- ProductForm.HandleSubmit: a non-string `nombre` makes `trim` throw before any update; the model returns the form unchanged with no call.
- AuthService.Login: when a rejected login's response body is `null` or `undefined`, `data.error` throws a TypeError that escapes `login`. The model gives V8's message text for it (`ReadOfNothing`); other engines word it differently. That message no longer tells a 401 from any other status (`UnreadableErrorBodyHidesStatus`), so `LoginFailuresDistinguishable` only covers readable bodies.
- JavaScript's ordering of integer-like keys first in object spreads, `for...in` and `Object.keys` is not modelled; keys keep insertion order. `String(n)` switching to exponent notation from 1e21 is not modelled either. Neither can happen with this form's field names, ids and counts.
- ProductService.FieldEntries: `FormData` converts every non-file value with `String`. The model therefore holds text only, and cannot express that the browser would send a `Blob` field as a file.

## Findings

| source | as written | input that shows it | evidently intended | confidence | as-written member | corrected member |
|---|---|---|---|---|---|---|
| src/components/ProductForm.jsx:203-205 | the upload list for an edit drops the files whose *index* is in `imagenesAEliminar`, but that list holds file names, so nothing is ever dropped | edit a product with one stored image `a.jpg`, whose fetch succeeds; remove its thumbnail; save. `a.jpg` is queued for deletion and uploaded again | upload only the files whose name is not queued for deletion | not executed | ImageSet.UploadBatch (with ImageSet.UploadBatchKeepsEverything and ImageSet.DeletedImageIsReuploadedExample) | ImageSet.IntendedUploadBatch |

`ProductForm.HandleSubmit` keeps the filter as written, because that is what the form sends. `ImageSet.IntendedUploadBatch` is the corrected definition. Its contract states the intended property: no uploaded file is queued for deletion, and every other held file is uploaded. `ImageSet.DeletedImageIsReuploaded` shows that the corrected filter gives the intended result on the counterexample.

=== FILE: auth_context.dfy ===
/**
 The authentication provider: the session it derives from the stored token,
 and how `login` and `logout` change the session and the storage cell.
 */
module AuthContext {
  import opened Js
  import opened Browser
  import opened AuthService

  /** `currentUser`: `{token}` after a reload, `{token, username}` after a login. */
  datatype User = User(token: Value, username: Option<string>)

  /** The provider's state together with the `localStorage` token cell it reads and writes. */
  datatype Session = Session(currentUser: Option<User>, loading: bool, error: string, storage: TokenCell)

  /** `currentUser` as the JavaScript value the provider holds: `null`, or the user object. */
  function UserValue(u: Option<User>): (v: Value)
    ensures u.None? <==> v.Null?
    ensures u.Some? ==> v.Obj? && Lookup(v.props, "token") == u.value.token
    ensures u.Some? && u.value.username.Some? ==> Lookup(v.props, "username") == Str(u.value.username.value)
  {
    match u
    case None => Null
    case Some(user) =>
      var name := if user.username.Some? then [("username", Str(user.username.value))] else [];
      Obj([("token", user.token)] + name)
  }

  /** `isAuthenticated: !!currentUser`: signed in exactly when a user object is held. */
  function IsAuthenticated(s: Session): (b: bool)
    ensures b <==> s.currentUser.Some?
  {
    Truthy(UserValue(s.currentUser))
  }

  /** `{!loading && children}`: what the provider renders inside itself. */
  function Rendered(s: Session, children: Value): (r: Value)
    ensures s.loading ==> r == Bool(false)
    ensures !s.loading ==> r == children
  {
    And(Bool(!s.loading), children)
  }

  /** The application is shown only once loading is over. */
  predicate RendersChildren(s: Session) {
    !s.loading
  }

  /** React renders `false` as nothing: the children appear exactly when `RendersChildren` holds. */
  lemma RenderedChildrenIffNotLoading(s: Session, children: Value)
    requires children != Bool(false)
    ensures Rendered(s, children) == children <==> RendersChildren(s)
  {
  }

  /** The provider as first rendered: nobody signed in, still loading. */
  function Mounted(storage: TokenCell): (s: Session)
    ensures !IsAuthenticated(s) && !RendersChildren(s)
  {
    Session(None, true, "", storage)
  }

  /** The mount effect: a truthy stored token signs the user back in. */
  function Restore(s: Session): (r: Session)
    ensures IsAuthenticated(r) <==> IsAuthenticated(s) || (s.storage.Some? && s.storage.value != "")
    ensures s.storage.Some? && s.storage.value != "" ==> r.currentUser == Some(User(Str(s.storage.value), None))
    ensures !r.loading && RendersChildren(r)
    ensures r.storage == s.storage && r.error == s.error
  {
    match s.storage
    case Some(token) =>
      if token != "" then s.(currentUser := Some(User(Str(token), None)), loading := false)
      else s.(loading := false)
    case None => s.(loading := false)
  }

  /** The provider once its mount effect has run. */
  function Initialize(storage: TokenCell): (s: Session)
    ensures IsAuthenticated(s) <==> storage.Some? && storage.value != ""
    ensures !s.loading && s.error == "" && s.storage == storage
  {
    Restore(Mounted(storage))
  }

  /** The first half of `login`: loading, with the previous error cleared. */
  function LoginStarted(s: Session): (r: Session)
    ensures r.loading && r.error == "" && !RendersChildren(r)
    ensures r.currentUser == s.currentUser && r.storage == s.storage
  {
    s.(loading := true, error := "")
  }

  datatype LoginStep = LoginStep(session: Session, succeeded: bool)

  /** The second half of `login`, once the auth service settled. */
  function LoginSettled(s: Session, username: string, result: LoginResult): (r: LoginStep)
    ensures r.succeeded <==> result.Token?
    ensures result.Token? ==>
      && r.session.storage == Some(ToText(result.token))
      && r.session.currentUser == Some(User(result.token, Some(username)))
      && r.session.error == s.error
    ensures result.Failed? ==>
      && r.session.storage == s.storage
      && r.session.currentUser == s.currentUser
      && r.session.error == result.message
    ensures !r.session.loading
  {
    match result
    case Token(token) =>
      LoginStep(s.(storage := Some(ToText(token)), currentUser := Some(User(token, Some(username))), loading := false), true)
    case Failed(message) =>
      LoginStep(s.(error := message, loading := false), false)
  }

  /** `login(username, password)` as one step, given what the auth service settled to. */
  function Login(s: Session, username: string, result: LoginResult): (r: LoginStep)
    ensures r.succeeded ==> IsAuthenticated(r.session) && r.session.error == ""
    ensures !r.succeeded ==> r.session.currentUser == s.currentUser && r.session.storage == s.storage
    ensures result.Failed? ==> !r.succeeded && r.session.error == result.message
    ensures RendersChildren(r.session)
  {
    LoginSettled(LoginStarted(s), username, result)
  }

  /** `logout()`: the stored token is removed and the user signed out. */
  function Logout(s: Session): (r: Session)
    ensures r.storage.None? && !IsAuthenticated(r)
    ensures r.loading == s.loading && r.error == s.error
  {
    s.(storage := None, currentUser := None)
  }

  /** A signed-in user's token is the one in storage (as `setItem` stringifies it). */
  predicate InSync(s: Session) {
    s.currentUser.Some? ==> s.storage == Some(ToText(s.currentUser.value.token))
  }

  /** Every provider step keeps the signed-in user and the storage cell in sync. */
  lemma StepsKeepInSync(s: Session, username: string, result: LoginResult, storage: TokenCell)
    requires InSync(s)
    ensures InSync(Initialize(storage))
    ensures InSync(Login(s, username, result).session)
    ensures InSync(Logout(s))
  {
  }

  /**
   A reload after a successful login finds the user signed in again exactly
   when the stored text is non-empty: an undefined token is stored as the text
   `undefined` and therefore still counts as signed in.
   */
  lemma ReloadAfterLogin(s: Session, username: string, token: Value)
    ensures var after := Login(s, username, Token(token)).session;
      IsAuthenticated(Initialize(after.storage)) <==> ToText(token) != ""
    ensures var after := Login(s, username, Token(Undefined)).session;
      IsAuthenticated(Initialize(after.storage))
  {
  }

  /** After a logout, a reload finds nobody signed in. */
  lemma ReloadAfterLogout(s: Session)
    ensures !IsAuthenticated(Initialize(Logout(s).storage))
  {
  }
}

=== FILE: auth_service.dfy ===
/**
 `login(username, password)` of the auth service: how the settled POST to
 `/api/login` turns into a token or into the message of the error it throws.
 */
module AuthService {
  import opened Js
  import opened Http

  const LoginUrl := "https://tienda-kxep.onrender.com/api/login"

  const InvalidCredentials := "Credenciales inválidas"
  const NoResponse := "No se recibió respuesta del servidor"
  const SetupFailed := "Error al configurar la solicitud"
  const ServerErrorPrefix := "Error en el servidor ("

  /** What `login` settles to: the token it returns, or the message of the error it throws. */
  datatype LoginResult = Token(token: Value) | Failed(message: string)

  /** The default message for a non-401 error status. */
  function ServerError(status: int): (m: string)
    ensures |m| > |ServerErrorPrefix| + 1
    ensures m[..|ServerErrorPrefix|] == ServerErrorPrefix && m[|m| - 1] == ')'
    ensures m[|ServerErrorPrefix|..|m| - 1] == IntToString(status)
  {
    ServerErrorPrefix + IntToString(status) + ")"
  }

  /** The status can be read back from a default server-error message. */
  lemma ServerErrorInjective(a: int, b: int)
    ensures ServerError(a) == ServerError(b) ==> a == b
  {
    if ServerError(a) == ServerError(b) {
      IntToStringInjective(a, b);
    }
  }

  /** No two of the default messages coincide, so a default message names its case. */
  lemma DefaultMessagesDistinct(status: int)
    ensures InvalidCredentials != NoResponse && InvalidCredentials != SetupFailed && NoResponse != SetupFailed
    ensures ServerError(status) !in {InvalidCredentials, NoResponse, SetupFailed}
  {
    var m := ServerError(status);
    assert m[..|ServerErrorPrefix|] == ServerErrorPrefix;
    assert InvalidCredentials[0] != 'E' && NoResponse[0] != 'E';
    assert SetupFailed[..|ServerErrorPrefix|] != ServerErrorPrefix by {
      assert SetupFailed[6] != ServerErrorPrefix[6];
    }
  }

  /** V8's message for reading `key` off null or undefined. */
  function ReadOfNothing(v: Value, key: string): (m: string)
    requires v.Null? || v.Undefined?
    ensures v.Null? ==> m == "Cannot read properties of " + "null" + " (reading '" + key + "')"
    ensures v.Undefined? ==> m == "Cannot read properties of " + "undefined" + " (reading '" + key + "')"
  {
    "Cannot read properties of " + ToText(v) + " (reading '" + key + "')"
  }

  /** The TypeError's message is none of `login`'s own messages. */
  lemma ReadOfNothingNotDefault(v: Value, key: string, status: int)
    requires v.Null? || v.Undefined?
    ensures ReadOfNothing(v, key) !in {InvalidCredentials, NoResponse, SetupFailed, ServerError(status)}
  {
    var m := ReadOfNothing(v, key);
    assert m[0] == 'C' && m[1] == 'a';
    assert InvalidCredentials[1] != 'a' && NoResponse[0] != 'C' && SetupFailed[0] != 'C';
    assert ServerError(status)[0] == 'E';
  }

  /** `new Error(data.error || fallback).message`. */
  function ErrorText(reported: Value, fallback: string): (m: string)
    ensures Truthy(reported) ==> m == ToText(reported)
    ensures !Truthy(reported) ==> m == fallback
  {
    if Truthy(reported) then ToText(reported) else fallback
  }

  /** `login`, given how its request settled. */
  function Login(o: Outcome<Value>): (r: LoginResult)
    // success: `response.data.token || response.data.access_token`
    ensures o.Resolved? && Member(o.data, "token").Some? ==>
      r == Token(if Truthy(Read(o.data, "token")) then Read(o.data, "token") else Read(o.data, "access_token"))
    // a body of null or undefined makes the read throw a TypeError, which has neither response nor request
    ensures o.Resolved? && Member(o.data, "token").None? ==> r == Failed(SetupFailed)
    ensures o.Rejected? && o.error.response.Some? && Member(o.error.response.value.data, "error").Some? ==>
      var status := o.error.response.value.status;
      var reported := Read(o.error.response.value.data, "error");
      r == Failed(ErrorText(reported, if status == 401 then InvalidCredentials else ServerError(status)))
    // an error body of null or undefined makes `data.error` throw a TypeError, which escapes `login`
    ensures o.Rejected? && o.error.response.Some? && Member(o.error.response.value.data, "error").None? ==>
      r == Failed(ReadOfNothing(o.error.response.value.data, "error"))
    ensures o.Rejected? && o.error.response.None? && o.error.requestSent ==> r == Failed(NoResponse)
    ensures o.Rejected? && o.error.response.None? && !o.error.requestSent ==> r == Failed(SetupFailed)
  {
    match o
    case Resolved(data) =>
      (match Member(data, "token")
       case None => Failed(SetupFailed)
       case Some(token) =>
         if Truthy(token) then Token(token) else Token(Member(data, "access_token").value))
    case Rejected(e) =>
      if e.response.Some? then
        var status := e.response.value.status;
        var data := e.response.value.data;
        match Member(data, "error")
        // the read in the catch block throws, and that TypeError escapes `login`
        case None => Failed(ReadOfNothing(data, "error"))
        case Some(reported) =>
          if status == 401 then Failed(ErrorText(reported, InvalidCredentials))
          else Failed(ErrorText(reported, ServerError(status)))
      else if e.requestSent then Failed(NoResponse)
      else Failed(SetupFailed)
  }

  /** `v[key]` for a value that is neither null nor undefined. */
  function Read(v: Value, key: string): Value
    requires !v.Null? && !v.Undefined?
  {
    Member(v, key).value
  }

  /** `login` yields a token exactly when the request succeeded with a readable body. */
  lemma LoginTokenIffSuccess(o: Outcome<Value>)
    ensures Login(o).Token? <==> o.Resolved? && !o.data.Null? && !o.data.Undefined?
  {
  }

  /**
   An error body of null or undefined hides the status: a 401 and a 500
   (or any two statuses) then end in the same TypeError message.
   */
  lemma UnreadableErrorBodyHidesStatus(e1: AxiosError, e2: AxiosError)
    requires e1.response.Some? && e2.response.Some?
    requires e1.response.value.data == e2.response.value.data
    requires e1.response.value.data.Null? || e1.response.value.data.Undefined?
    ensures Login(Rejected(e1)) == Login(Rejected(e2))
    ensures Login(Rejected(e1)) == Failed(ReadOfNothing(e1.response.value.data, "error"))
  {
  }

  /** The same collision on two concrete rejections: 401 and 500, both with a `null` body. */
  lemma NullBody401Like500()
    ensures Login(Rejected(AxiosError(Some(Response(401, Null)), true, "")))
         == Login(Rejected(AxiosError(Some(Response(500, Null)), true, "")))
    ensures Login(Rejected(AxiosError(Some(Response(401, Null)), true, "")))
         == Failed("Cannot read properties of null (reading 'error')")
  {
    UnreadableErrorBodyHidesStatus(AxiosError(Some(Response(401, Null)), true, ""),
                                   AxiosError(Some(Response(500, Null)), true, ""));
  }

  /**
   With a readable body but no `error` text from the server, the rejection cases give pairwise
   different messages: 401, each other status, no response, and a request
   that was never sent can all be told apart.
   */
  lemma LoginFailuresDistinguishable(e1: AxiosError, e2: AxiosError)
    requires e1.response.Some? ==>
      Member(e1.response.value.data, "error").Some? && !Truthy(Member(e1.response.value.data, "error").value)
    requires e2.response.Some? ==>
      Member(e2.response.value.data, "error").Some? && !Truthy(Member(e2.response.value.data, "error").value)
    requires Login(Rejected(e1)) == Login(Rejected(e2))
    ensures e1.response.Some? <==> e2.response.Some?
    ensures e1.response.Some? ==>
      (e1.response.value.status == 401 <==> e2.response.value.status == 401)
    ensures e1.response.Some? && e1.response.value.status != 401 ==>
      e1.response.value.status == e2.response.value.status
    ensures e1.response.None? ==> e1.requestSent == e2.requestSent
  {
    if e1.response.Some? {
      DefaultMessagesDistinct(e1.response.value.status);
    }
    if e2.response.Some? {
      DefaultMessagesDistinct(e2.response.value.status);
    }
    if e1.response.Some? && e2.response.Some? {
      ServerErrorInjective(e1.response.value.status, e2.response.value.status);
    }
  }
}

=== FILE: browser.dfy ===
/**
 Browser primitives the console uses, reduced to values: files picked by the
 user, multipart form entries, and the `localStorage` cell holding the token.
 */
module Browser {
  import opened Js

  /** Opaque binary contents of a file; the bytes themselves are never inspected. */
  type Blob = nat

  /** A `File` object: its `name` and its contents. */
  datatype File = File(name: string, content: Blob)

  /** What `FormData.append(key, v)` stores: a `File` as is, anything else as `String(v)`. */
  datatype FormValue = Text(text: string) | Attachment(file: File)

  datatype FormEntry = FormEntry(key: string, value: FormValue)

  /** The `localStorage` entry under `'token'`: `getItem` returns it, or null when absent. */
  type TokenCell = Option<string>
}

=== FILE: http.dfy ===
/**
 The outcome of one axios request, as the services see it. The request itself
 is not modelled: its outcome is an input of every operation that makes one.
 */
module Http {
  import opened Js

  datatype Response = Response(status: int, data: Value)

  /**
   A rejected request. `response` is present when the server answered with an
   error status; `requestSent` says whether the request left the browser
   (axios' `error.request`); `message` is the error's `message`.
   */
  datatype AxiosError = AxiosError(response: Option<Response>, requestSent: bool, message: string)

  /** A request either resolves with the response body or rejects with an error. */
  datatype Outcome<+T> = Resolved(data: T) | Rejected(error: AxiosError)
}

=== FILE: image_set.dfy ===
/**
 The image set of the product form: the thumbnails shown (`imagenesPreviews`),
 the files to upload (`imagenesFiles`), the stored file names queued for
 deletion (`imagenesAEliminar`) and the stored images of the product being
 edited (`imagenesExistentes`), with the steps that change them.
 */
module ImageSet {
  import opened Js
  import opened Browser

  /** A thumbnail: a stored image of the product, or a file the user picked. */
  datatype Preview =
    | Stored(url: string, nombre: string)
    | Picked(url: string, file: File)

  /** An entry of `imagenesExistentes`. */
  datatype StoredImage = StoredImage(url: string, nombre: string)

  /** A file the user picked together with the object URL the browser minted for it. */
  datatype Selection = Selection(file: File, objectUrl: string)

  /** One stored image URL and what fetching it gave: its contents, or nothing when the fetch failed. */
  datatype Fetch = Fetch(url: string, body: Option<Blob>)

  datatype Images = Images(
    previews: seq<Preview>,
    files: seq<File>,
    toDelete: seq<string>,
    stored: seq<StoredImage>)

  const Empty := Images([], [], [], [])

  // ---------------------------------------------------------------------------
  // Hydration

  /** The file `urlToFile` builds from a successful fetch: named after the URL's last segment. */
  function Rebuilt(f: Fetch): File
    requires f.body.Some?
  {
    File(LastSegment(f.url), f.body.value)
  }

  /** The files rebuilt from the fetched images: failed fetches dropped, each named after its last path segment. */
  function FetchedFiles(fetches: seq<Fetch>): (files: seq<File>)
    ensures |files| <= |fetches|
  {
    if fetches == [] then []
    else
      (if fetches[0].body.Some? then [Rebuilt(fetches[0])] else []) + FetchedFiles(fetches[1..])
  }

  /** Every rebuilt file comes from a successful fetch, and is the file built from it. */
  lemma {:induction false} FetchedFileOrigin(fetches: seq<Fetch>, f: File)
    requires f in FetchedFiles(fetches)
    ensures exists i :: 0 <= i < |fetches| && fetches[i].body.Some? && Rebuilt(fetches[i]) == f
    decreases |fetches|
  {
    var rest := FetchedFiles(fetches[1..]);
    assert FetchedFiles(fetches) == (if fetches[0].body.Some? then [Rebuilt(fetches[0])] else []) + rest;
    if fetches[0].body.Some? && f == Rebuilt(fetches[0]) {
      assert 0 < |fetches| && fetches[0].body.Some? && Rebuilt(fetches[0]) == f;
    } else {
      assert f in rest;
      FetchedFileOrigin(fetches[1..], f);
      var i :| 0 <= i < |fetches[1..]| && fetches[1..][i].body.Some? && Rebuilt(fetches[1..][i]) == f;
      assert fetches[i + 1] == fetches[1..][i];
      assert 0 <= i + 1 < |fetches| && fetches[i + 1].body.Some? && Rebuilt(fetches[i + 1]) == f;
    }
  }

  /** Fetch results keep their URL order: rebuilding works piecewise on any split. */
  lemma {:induction false} FetchedFilesAppend(a: seq<Fetch>, b: seq<Fetch>)
    ensures FetchedFiles(a + b) == FetchedFiles(a) + FetchedFiles(b)
    decreases |a|
  {
    if a == [] {
      assert a + b == b;
    } else {
      var h := if a[0].body.Some? then [Rebuilt(a[0])] else [];
      assert (a + b)[0] == a[0];
      assert (a + b)[1..] == a[1..] + b;
      FetchedFilesAppend(a[1..], b);
      assert FetchedFiles(a + b) == h + (FetchedFiles(a[1..]) + FetchedFiles(b));
      assert FetchedFiles(a) == h + FetchedFiles(a[1..]);
      AppendAssoc(h, FetchedFiles(a[1..]), FetchedFiles(b));
    }
  }

  /** When every fetch succeeds there is one file per URL, in URL order. */
  lemma {:induction false} FetchedFilesAllSucceed(fetches: seq<Fetch>)
    requires forall i :: 0 <= i < |fetches| ==> fetches[i].body.Some?
    ensures |FetchedFiles(fetches)| == |fetches|
    ensures forall i :: 0 <= i < |fetches| ==> FetchedFiles(fetches)[i] == Rebuilt(fetches[i])
    decreases |fetches|
  {
    if fetches != [] {
      var tail := fetches[1..];
      FetchedFilesAllSucceed(tail);
      var r := FetchedFiles(fetches);
      assert r == [Rebuilt(fetches[0])] + FetchedFiles(tail);
      forall i | 1 <= i < |fetches|
        ensures r[i] == Rebuilt(fetches[i])
      {
        assert r[i] == FetchedFiles(tail)[i - 1];
        assert tail[i - 1] == fetches[i];
      }
    }
  }

  /** When every fetch fails nothing is rebuilt. */
  lemma {:induction false} FetchedFilesAllFail(fetches: seq<Fetch>)
    requires forall i :: 0 <= i < |fetches| ==> fetches[i].body.None?
    ensures FetchedFiles(fetches) == []
    decreases |fetches|
  {
    if fetches != [] {
      FetchedFilesAllFail(fetches[1..]);
    }
  }

  /** `imagenesExistentes`: each URL with its file name. */
  function StoredImages(fetches: seq<Fetch>): (r: seq<StoredImage>)
    ensures |r| == |fetches|
    ensures forall i :: 0 <= i < |fetches| ==> r[i].url == fetches[i].url
    ensures forall i :: 0 <= i < |fetches| ==> r[i].nombre == LastSegment(fetches[i].url)
  {
    seq(|fetches|, i requires 0 <= i < |fetches| => StoredImage(fetches[i].url, LastSegment(fetches[i].url)))
  }

  /**
   A file rebuilt from a successful fetch holds what was fetched, under the
   name the stored image of the same URL gets: the `/`-free tail of the URL.
   */
  lemma RebuiltMatchesStored(fetches: seq<Fetch>, i: nat)
    requires i < |fetches| && fetches[i].body.Some?
    ensures Rebuilt(fetches[i]).content == fetches[i].body.value
    ensures Rebuilt(fetches[i]).name == StoredImages(fetches)[i].nombre
    ensures '/' !in Rebuilt(fetches[i]).name
  {
  }

  function StoredPreviews(stored: seq<StoredImage>): (r: seq<Preview>)
    ensures |r| == |stored|
    ensures forall i :: 0 <= i < |stored| ==> r[i] == Stored(stored[i].url, stored[i].nombre)
  {
    seq(|stored|, i requires 0 <= i < |stored| => Stored(stored[i].url, stored[i].nombre))
  }

  /**
   The image part of loading a product for editing. The three successive
   preview updates of `fetchData` collapse to the last one: one stored
   thumbnail per URL. The files are the images fetched back.
   */
  function Hydrate(im: Images, fetches: seq<Fetch>): (r: Images)
    ensures fetches == [] ==> r == im
    ensures fetches != [] ==> |r.previews| == |fetches|
    ensures fetches != [] ==> forall i :: 0 <= i < |fetches| ==>
      r.previews[i] == Stored(fetches[i].url, LastSegment(fetches[i].url))
    ensures fetches != [] ==> r.files == FetchedFiles(fetches)
    ensures r.toDelete == im.toDelete
  {
    if fetches == [] then im
    else
      var stored := StoredImages(fetches);
      im.(files := FetchedFiles(fetches), stored := stored, previews := StoredPreviews(stored))
  }

  // ---------------------------------------------------------------------------
  // Adding

  function SelectedFiles(picked: seq<Selection>): (files: seq<File>)
    ensures |files| == |picked|
    ensures forall j :: 0 <= j < |picked| ==> files[j] == picked[j].file
  {
    seq(|picked|, j requires 0 <= j < |picked| => picked[j].file)
  }

  function NewPreviews(picked: seq<Selection>): (r: seq<Preview>)
    ensures |r| == |picked|
    ensures forall j :: 0 <= j < |picked| ==> r[j] == Picked(picked[j].objectUrl, picked[j].file)
  {
    seq(|picked|, j requires 0 <= j < |picked| => Picked(picked[j].objectUrl, picked[j].file))
  }

  /** `handleImageChange`: one new thumbnail and one file per picked file, after everything already there. */
  function HandleImageChange(im: Images, picked: seq<Selection>): (r: Images)
    ensures |r.previews| == |im.previews| + |picked|
    ensures r.previews[..|im.previews|] == im.previews
    ensures forall j :: 0 <= j < |picked| ==>
      r.previews[|im.previews| + j] == Picked(picked[j].objectUrl, picked[j].file)
    ensures |r.files| == |im.files| + |picked|
    ensures r.files[..|im.files|] == im.files
    ensures forall j :: 0 <= j < |picked| ==> r.files[|im.files| + j] == picked[j].file
    ensures r.toDelete == im.toDelete && r.stored == im.stored
  {
    im.(previews := im.previews + NewPreviews(picked), files := im.files + SelectedFiles(picked))
  }

  // ---------------------------------------------------------------------------
  // Removing

  /** `files.filter(file => file.name !== name)`. */
  function WithoutName(files: seq<File>, name: string): (r: seq<File>)
    ensures |r| <= |files|
    ensures forall f :: f in r ==> f in files && f.name != name
    ensures forall f :: f in files && f.name != name ==> f in r
  {
    if files == [] then []
    else (if files[0].name != name then [files[0]] else []) + WithoutName(files[1..], name)
  }

  /** The name filter keeps relative order: it works piecewise on any split. */
  lemma {:induction false} WithoutNameAppend(a: seq<File>, b: seq<File>, name: string)
    ensures WithoutName(a + b, name) == WithoutName(a, name) + WithoutName(b, name)
    decreases |a|
  {
    if a == [] {
      assert a + b == b;
    } else {
      assert (a + b)[0] == a[0];
      assert (a + b)[1..] == a[1..] + b;
      WithoutNameAppend(a[1..], b, name);
      AppendAssoc(if a[0].name != name then [a[0]] else [], WithoutName(a[1..], name), WithoutName(b, name));
    }
  }

  /** Removing a name drops every file of that name and keeps every other one with its multiplicity. */
  lemma {:induction false} WithoutNameCounts(files: seq<File>, name: string, g: File)
    ensures multiset(WithoutName(files, name))[g] == if g.name == name then 0 else multiset(files)[g]
    decreases |files|
  {
    if files != [] {
      var x, rest := files[0], files[1..];
      WithoutNameCounts(rest, name, g);
      assert multiset(files) == multiset{x} + multiset(rest) by { assert files == [x] + rest; }
      if x.name != name {
        assert multiset(WithoutName(files, name)) == multiset{x} + multiset(WithoutName(rest, name));
      }
    }
  }

  function RemoveAt<T>(s: seq<T>, index: nat): (r: seq<T>)
    requires index < |s|
    ensures |r| == |s| - 1
    ensures r[..index] == s[..index]
    ensures forall k :: index <= k < |r| ==> r[k] == s[k + 1]
  {
    s[..index] + s[index + 1..]
  }

  /**
   `removeImage(index)`: the thumbnail goes; a stored image's name is queued
   for deletion, a picked file is dropped from the uploads together with every
   other file of the same name.
   */
  function RemoveImage(im: Images, index: nat): (r: Images)
    requires index < |im.previews|
    ensures |r.previews| == |im.previews| - 1
    ensures r.previews[..index] == im.previews[..index]
    ensures forall k :: index <= k < |r.previews| ==> r.previews[k] == im.previews[k + 1]
    ensures im.previews[index].Stored? ==>
      r.toDelete == im.toDelete + [im.previews[index].nombre] && r.files == im.files
    ensures im.previews[index].Picked? ==>
      && r.toDelete == im.toDelete
      && (forall f :: f in r.files <==> f in im.files && f.name != im.previews[index].file.name)
    ensures r.stored == im.stored
  {
    var removed := im.previews[index];
    var toDelete := if removed.Stored? then im.toDelete + [removed.nombre] else im.toDelete;
    var files := if removed.Picked? then WithoutName(im.files, removed.file.name) else im.files;
    im.(toDelete := toDelete, previews := RemoveAt(im.previews, index), files := files)
  }

  // ---------------------------------------------------------------------------
  // Submitting

  /** `list.includes(v)` for a list of names; a name never equals a number. */
  function Includes(names: seq<string>, v: Value): (b: bool)
    ensures !v.Str? ==> !b
    ensures v.Str? ==> (b <==> v.s in names)
  {
    exists i :: 0 <= i < |names| && Str(names[i]) == v
  }

  /**
   `imagenesFiles.filter((_, index) => !imagenesAEliminar.includes(index))`,
   with `from` the index of `files[0]` in the whole list.
   */
  function KeepUnlistedIndices(files: seq<File>, toDelete: seq<string>, from: nat): (r: seq<File>)
    ensures |r| <= |files|
    ensures forall f :: f in r ==> f in files
  {
    if files == [] then []
    else (if !Includes(toDelete, Num(from)) then [files[0]] else [])
         + KeepUnlistedIndices(files[1..], toDelete, from + 1)
  }

  /**
   The files the edit form uploads, filtered as `handleSubmit` writes it: a
   file goes only if its position is listed, so no file is ever added.
   */
  function UploadBatch(files: seq<File>, toDelete: seq<string>): (r: seq<File>)
    ensures |r| <= |files|
    ensures forall f :: f in r ==> f in files
  {
    KeepUnlistedIndices(files, toDelete, 0)
  }

  lemma {:induction false} KeepUnlistedIndicesKeepsAll(files: seq<File>, toDelete: seq<string>, from: nat)
    ensures KeepUnlistedIndices(files, toDelete, from) == files
    decreases |files|
  {
    if files != [] {
      assert !Includes(toDelete, Num(from));
      KeepUnlistedIndicesKeepsAll(files[1..], toDelete, from + 1);
    }
  }

  /** The deletion list holds names, never indices, so the submit filter removes nothing. */
  lemma UploadBatchKeepsEverything(files: seq<File>, toDelete: seq<string>)
    ensures UploadBatch(files, toDelete) == files
  {
    KeepUnlistedIndicesKeepsAll(files, toDelete, 0);
  }

  /** The evidently intended filter: upload no file whose name is queued for deletion. */
  function IntendedUploadBatch(files: seq<File>, toDelete: seq<string>): (r: seq<File>)
    ensures |r| <= |files|
    ensures forall f :: f in r ==> f in files && f.name !in toDelete
    ensures forall f :: f in files && f.name !in toDelete ==> f in r
  {
    if files == [] then []
    else (if files[0].name !in toDelete then [files[0]] else []) + IntendedUploadBatch(files[1..], toDelete)
  }

  /** The intended filter keeps the upload order. */
  lemma {:induction false} IntendedUploadBatchAppend(a: seq<File>, b: seq<File>, toDelete: seq<string>)
    ensures IntendedUploadBatch(a + b, toDelete) == IntendedUploadBatch(a, toDelete) + IntendedUploadBatch(b, toDelete)
    decreases |a|
  {
    if a == [] {
      assert a + b == b;
    } else {
      assert (a + b)[0] == a[0];
      assert (a + b)[1..] == a[1..] + b;
      IntendedUploadBatchAppend(a[1..], b, toDelete);
      AppendAssoc(if a[0].name !in toDelete then [a[0]] else [],
                  IntendedUploadBatch(a[1..], toDelete), IntendedUploadBatch(b, toDelete));
    }
  }

  // ---------------------------------------------------------------------------
  // Accounting for the stored images

  /** The names of the stored thumbnails still shown, in order. */
  function StoredNames(previews: seq<Preview>): seq<string> {
    if previews == [] then []
    else (if previews[0].Stored? then [previews[0].nombre] else []) + StoredNames(previews[1..])
  }

  lemma {:induction false} StoredNamesAppend(a: seq<Preview>, b: seq<Preview>)
    ensures StoredNames(a + b) == StoredNames(a) + StoredNames(b)
    decreases |a|
  {
    if a == [] {
      assert a + b == b;
    } else {
      assert (a + b)[0] == a[0];
      assert (a + b)[1..] == a[1..] + b;
      StoredNamesAppend(a[1..], b);
    }
  }

  lemma {:induction false} NewPreviewsHaveNoStoredName(picked: seq<Selection>)
    ensures StoredNames(NewPreviews(picked)) == []
    decreases |picked|
  {
    if picked != [] {
      NewPreviewsHaveNoStoredName(picked[1..]);
      assert NewPreviews(picked)[1..] == NewPreviews(picked[1..]);
    }
  }

  lemma {:induction false} StoredPreviewNames(stored: seq<StoredImage>)
    ensures StoredNames(StoredPreviews(stored)) == seq(|stored|, i requires 0 <= i < |stored| => stored[i].nombre)
    decreases |stored|
  {
    if stored != [] {
      StoredPreviewNames(stored[1..]);
      assert StoredPreviews(stored)[1..] == StoredPreviews(stored[1..]);
    }
  }

  /** The last path segments of the URLs the form was hydrated with. */
  function HydratedNames(fetches: seq<Fetch>): (names: multiset<string>)
    ensures |names| == |fetches|
  {
    multiset(seq(|fetches|, i requires 0 <= i < |fetches| => LastSegment(fetches[i].url)))
  }

  /**
   Every stored image is accounted for exactly once: still shown, or queued
   for deletion. (Two URLs with the same last segment count twice.)
   */
  predicate Accounted(im: Images, names: multiset<string>) {
    multiset(StoredNames(im.previews)) + multiset(im.toDelete) == names
  }

  /** Hydrating a fresh form accounts for every stored URL. */
  lemma HydrateAccounts(fetches: seq<Fetch>)
    ensures Accounted(Hydrate(Empty, fetches), HydratedNames(fetches))
  {
    if fetches != [] {
      var stored := StoredImages(fetches);
      StoredPreviewNames(stored);
      assert seq(|stored|, i requires 0 <= i < |stored| => stored[i].nombre)
          == seq(|fetches|, i requires 0 <= i < |fetches| => LastSegment(fetches[i].url));
    }
  }

  lemma ImageChangeKeepsAccount(im: Images, picked: seq<Selection>, names: multiset<string>)
    requires Accounted(im, names)
    ensures Accounted(HandleImageChange(im, picked), names)
  {
    StoredNamesAppend(im.previews, NewPreviews(picked));
    NewPreviewsHaveNoStoredName(picked);
    assert StoredNames(im.previews) + [] == StoredNames(im.previews);
  }

  lemma RemoveKeepsAccount(im: Images, index: nat, names: multiset<string>)
    requires index < |im.previews|
    requires Accounted(im, names)
    ensures Accounted(RemoveImage(im, index), names)
  {
    var p := im.previews;
    assert p == p[..index] + ([p[index]] + p[index + 1..]);
    StoredNamesAppend(p[..index], [p[index]] + p[index + 1..]);
    StoredNamesAppend([p[index]], p[index + 1..]);
    StoredNamesAppend(p[..index], p[index + 1..]);
    assert StoredNames([p[index]]) == (if p[index].Stored? then [p[index].nombre] else []) + StoredNames([]);
  }

  // ---------------------------------------------------------------------------
  // Any sequence of user edits

  /** A user action on the image set. */
  datatype Edit = AddFiles(picked: seq<Selection>) | RemoveIndex(index: nat)

  /**
   One edit. A remove with an index past the end reads a property of
   `undefined` before any state update and throws, leaving the set as it was.
   */
  function Apply(im: Images, e: Edit): (r: Images)
    ensures e.RemoveIndex? && e.index >= |im.previews| ==> r == im
    ensures e.RemoveIndex? && e.index < |im.previews| ==>
      |r.previews| == |im.previews| - 1 && |r.toDelete| <= |im.toDelete| + 1 && |r.files| <= |im.files|
    ensures e.AddFiles? ==>
      |r.previews| == |im.previews| + |e.picked| && r.toDelete == im.toDelete && |r.files| == |im.files| + |e.picked|
    ensures r.stored == im.stored
  {
    match e
    case AddFiles(picked) => HandleImageChange(im, picked)
    case RemoveIndex(index) => if index < |im.previews| then RemoveImage(im, index) else im
  }

  function Run(im: Images, edits: seq<Edit>): Images
    decreases |edits|
  {
    if edits == [] then im else Run(Apply(im, edits[0]), edits[1..])
  }

  /**
   After hydration and any sequence of adds and removes, every image the
   product had is either still shown or queued for deletion, exactly once;
   in particular the deletion queue names only images the product had.
   */
  lemma {:induction false} RunKeepsAccount(im: Images, edits: seq<Edit>, names: multiset<string>)
    requires Accounted(im, names)
    ensures Accounted(Run(im, edits), names)
    ensures multiset(Run(im, edits).toDelete) <= names
    decreases |edits|
  {
    if edits != [] {
      var next := Apply(im, edits[0]);
      match edits[0] {
        case AddFiles(picked) => ImageChangeKeepsAccount(im, picked, names);
        case RemoveIndex(index) =>
          if index < |im.previews| {
            RemoveKeepsAccount(im, index, names);
          }
      }
      RunKeepsAccount(next, edits[1..], names);
    }
  }

  /** The upload list only grows by adds and only shrinks by removing a picked file. */
  lemma {:induction false} RemovingStoredNeverShrinksUploads(im: Images, index: nat)
    requires index < |im.previews| && im.previews[index].Stored?
    ensures RemoveImage(im, index).files == im.files
    ensures UploadBatch(RemoveImage(im, index).files, RemoveImage(im, index).toDelete) == im.files
  {
    UploadBatchKeepsEverything(im.files, im.toDelete + [im.previews[index].nombre]);
  }

  // ---------------------------------------------------------------------------
  // The submit filter on concrete edits

  /** Hydrating from one successfully fetched URL: one stored thumbnail and its file. */
  lemma HydrateOne(url: string, blob: Blob)
    ensures var h := Hydrate(Empty, [Fetch(url, Some(blob))]);
      && h.previews == [Stored(url, LastSegment(url))]
      && h.files == [File(LastSegment(url), blob)]
      && h.toDelete == []
  {
    var fetches := [Fetch(url, Some(blob))];
    var h := Hydrate(Empty, fetches);
    assert FetchedFiles(fetches) == [Rebuilt(fetches[0])] + FetchedFiles(fetches[1..]);
    assert h.previews[0] == Stored(url, LastSegment(url));
  }

  /**
   Editing a product with one stored image and removing it: the deletion is
   queued and the thumbnail is gone, yet the submit filter still uploads the
   copy fetched back during hydration; the intended filter uploads nothing.
   */
  lemma DeletedImageIsReuploaded(url: string, blob: Blob)
    ensures var im := Apply(Hydrate(Empty, [Fetch(url, Some(blob))]), RemoveIndex(0));
      && im.previews == []
      && im.toDelete == [LastSegment(url)]
      && UploadBatch(im.files, im.toDelete) == [File(LastSegment(url), blob)]
      && IntendedUploadBatch(im.files, im.toDelete) == []
  {
    var h := Hydrate(Empty, [Fetch(url, Some(blob))]);
    var file := File(LastSegment(url), blob);
    HydrateOne(url, blob);
    var im := RemoveImage(h, 0);
    assert im == Apply(h, RemoveIndex(0));
    assert im.files == [file] && im.toDelete == [LastSegment(url)];
    UploadBatchKeepsEverything(im.files, im.toDelete);
    assert UploadBatch(im.files, im.toDelete) == [file];
    assert IntendedUploadBatch([file], im.toDelete) == [] + IntendedUploadBatch([], im.toDelete);
    assert IntendedUploadBatch(im.files, im.toDelete) == [];
  }

  /** The smallest instance: the stored image `a.jpg`, removed before saving, is sent again. */
  lemma DeletedImageIsReuploadedExample()
    ensures var im := Apply(Hydrate(Empty, [Fetch("a.jpg", Some(1))]), RemoveIndex(0));
      im.toDelete == ["a.jpg"] && UploadBatch(im.files, im.toDelete) == [File("a.jpg", 1)]
  {
    LastSegmentOfPlainName("a.jpg");
    DeletedImageIsReuploaded("a.jpg", 1);
  }

  /**
   Two picked files with the same name: removing one thumbnail drops both
   files, while the other thumbnail stays on screen with nothing to upload.
   */
  lemma RemovingPickedOrphansNamesakes(im: Images, i: nat, j: nat)
    requires i < |im.previews| && j < |im.previews| && i != j
    requires im.previews[i].Picked? && im.previews[j].Picked?
    requires im.previews[i].file.name == im.previews[j].file.name
    ensures im.previews[j] in RemoveImage(im, i).previews
    ensures im.previews[j].file !in RemoveImage(im, i).files
  {
    var r := RemoveImage(im, i);
    if j < i {
      assert r.previews[..i][j] == im.previews[..i][j];
    } else {
      assert r.previews[j - 1] == im.previews[j];
    }
  }
}

=== FILE: js.dfy ===
/**
 The fragment of JavaScript value semantics the admin console relies on:
 truthiness, `String(v)`, property reads, `String.prototype.trim`,
 `s.split('/').pop()` and plain objects as insertion-ordered property lists.
 Numbers are integers only; floating point is not modelled.
 */
module Js {

  datatype Option<+T> = None | Some(value: T)

  /** A JavaScript value. Objects keep their own properties in iteration order. */
  datatype Value =
    | Undefined
    | Null
    | Bool(b: bool)
    | Num(n: int)
    | Str(s: string)
    | Obj(props: seq<(string, Value)>)

  /** An object's own properties, in the order `for...in` visits them. */
  type Props = seq<(string, Value)>

  /** `!!v`: the falsy values are undefined, null, false, 0 and the empty string. */
  predicate Truthy(v: Value) {
    match v
    case Undefined => false
    case Null => false
    case Bool(b) => b
    case Num(n) => n != 0
    case Str(s) => s != ""
    case Obj(_) => true
  }

  /** `a && b`: the first operand when it is falsy, otherwise the second. */
  function And(a: Value, b: Value): (r: Value)
    ensures !Truthy(a) ==> r == a
    ensures Truthy(a) ==> r == b
  {
    if Truthy(a) then b else a
  }

  // ---------------------------------------------------------------------------
  // Decimal numerals

  predicate IsDigit(c: char) {
    '0' <= c <= '9'
  }

  predicate AllDigits(s: string) {
    forall i :: 0 <= i < |s| ==> IsDigit(s[i])
  }

  function DigitChar(d: nat): (c: char)
    requires d < 10
    ensures IsDigit(c)
  {
    ['0', '1', '2', '3', '4', '5', '6', '7', '8', '9'][d]
  }

  function DigitValue(c: char): (d: nat)
    requires IsDigit(c)
    ensures d < 10
  {
    (c as int - '0' as int) as nat
  }

  /** The shortest decimal numeral of `n`, as `String(n)` writes a non-negative integer. */
  function NatToString(n: nat): (r: string)
    ensures |r| > 0 && AllDigits(r)
    ensures r[0] == '0' ==> n == 0
  {
    if n < 10 then [DigitChar(n)] else NatToString(n / 10) + [DigitChar(n % 10)]
  }

  /** `String(n)` for an integer number. */
  function IntToString(n: int): (r: string)
    ensures |r| > 0
    ensures n < 0 <==> r[0] == '-'
  {
    if n < 0 then "-" + NatToString(-n) else NatToString(n)
  }

  /** The value of a string of decimal digits, most significant first. */
  function DigitsValue(s: string): nat
    requires AllDigits(s)
  {
    if s == [] then 0 else DigitsValue(s[..|s| - 1]) * 10 + DigitValue(s[|s| - 1])
  }

  /** Reads back an optional minus sign followed by at least one digit. */
  function ParseInt(s: string): Option<int> {
    if |s| > 1 && s[0] == '-' && AllDigits(s[1..]) then Some(-(DigitsValue(s[1..]) as int))
    else if |s| > 0 && AllDigits(s) then Some(DigitsValue(s))
    else None
  }

  lemma {:induction false} NatToStringValue(n: nat)
    ensures DigitsValue(NatToString(n)) == n
    decreases n
  {
    if n < 10 {
      assert NatToString(n)[..0] == [];
    } else {
      var p := NatToString(n / 10);
      NatToStringValue(n / 10);
      assert (p + [DigitChar(n % 10)])[..|p|] == p;
    }
  }

  /** `String(n)` loses nothing: the numeral reads back as the same integer. */
  lemma IntToStringRoundTrip(n: int)
    ensures ParseInt(IntToString(n)) == Some(n)
  {
    if n < 0 {
      NegativeRoundTrip(n);
    } else {
      NatRoundTrip(n);
    }
  }

  lemma NatRoundTrip(n: nat)
    ensures ParseInt(IntToString(n)) == Some(n)
  {
    var d := NatToString(n);
    assert IntToString(n) == d;
    NatToStringValue(n);
    assert IsDigit(d[0]);
  }

  lemma NegativeRoundTrip(n: int)
    requires n < 0
    ensures ParseInt(IntToString(n)) == Some(n)
  {
    var m: nat := -n;
    assert IntToString(n) == "-" + NatToString(m);
    SignedNumeralValue(m);
  }

  lemma SignedNumeralValue(m: nat)
    ensures ParseInt("-" + NatToString(m)) == Some(-(m as int))
  {
    var d := NatToString(m);
    NatToStringValue(m);
    assert ("-" + d)[1..] == d;
  }

  /** Distinct integers have distinct numerals. */
  lemma IntToStringInjective(a: int, b: int)
    ensures IntToString(a) == IntToString(b) ==> a == b
  {
    IntToStringRoundTrip(a);
    IntToStringRoundTrip(b);
  }

  /** Concatenation regroups freely. */
  lemma AppendAssoc<T>(a: seq<T>, b: seq<T>, c: seq<T>)
    ensures a + (b + c) == (a + b) + c
  {
  }

  // ---------------------------------------------------------------------------
  // String(v)

  /** `String(v)`, also what a template literal and `+` with a string produce. */
  function ToText(v: Value): string {
    match v
    case Undefined => "undefined"
    case Null => "null"
    case Bool(b) => if b then "true" else "false"
    case Num(n) => IntToString(n)
    case Str(s) => s
    case Obj(_) => "[object Object]"
  }

  // ---------------------------------------------------------------------------
  // Objects

  function Keys(props: Props): (ks: seq<string>)
    ensures |ks| == |props|
    ensures forall i :: 0 <= i < |props| ==> ks[i] == props[i].0
  {
    if props == [] then [] else [props[0].0] + Keys(props[1..])
  }

  /** Every key occurs once, as in a real JavaScript object. */
  predicate UniqueKeys(props: Props) {
    forall i, j :: 0 <= i < j < |props| ==> props[i].0 != props[j].0
  }

  /** `o[key]` for an object: the value stored under `key`, or undefined. */
  function Lookup(props: Props, key: string): (v: Value)
    ensures key !in Keys(props) ==> v == Undefined
    ensures key in Keys(props) ==> (key, v) in props
  {
    if props == [] then Undefined
    else if props[0].0 == key then props[0].1
    else Lookup(props[1..], key)
  }

  /** `{...o, [key]: v}`: an existing key keeps its position, a new key goes last. */
  function SetProp(props: Props, key: string, v: Value): (r: Props)
    ensures key in Keys(props) ==> Keys(r) == Keys(props)
    ensures key !in Keys(props) ==> Keys(r) == Keys(props) + [key]
  {
    if props == [] then [(key, v)]
    else if props[0].0 == key then [(key, v)] + props[1..]
    else [props[0]] + SetProp(props[1..], key, v)
  }

  lemma {:induction false} SetPropReads(props: Props, key: string, v: Value, other: string)
    ensures Lookup(SetProp(props, key, v), key) == v
    ensures other != key ==> Lookup(SetProp(props, key, v), other) == Lookup(props, other)
    decreases |props|
  {
    if props != [] && props[0].0 != key {
      SetPropReads(props[1..], key, v, other);
    }
  }

  /** A spread update leaves every other key reading as before. */
  lemma SetPropKeepsOthers(props: Props, key: string, v: Value)
    ensures forall other :: other != key ==> Lookup(SetProp(props, key, v), other) == Lookup(props, other)
  {
    forall other | other != key
      ensures Lookup(SetProp(props, key, v), other) == Lookup(props, other)
    {
      SetPropReads(props, key, v, other);
    }
  }

  /** In an object with unique keys, each key reads the value stored beside it. */
  lemma {:induction false} LookupUnique(props: Props, i: nat)
    requires UniqueKeys(props) && i < |props|
    ensures Lookup(props, props[i].0) == props[i].1
    decreases i
  {
    if i > 0 {
      assert props[0].0 != props[i].0;
      assert props[1..][i - 1] == props[i];
      LookupUnique(props[1..], i - 1);
    }
  }

  lemma SetPropKeepsUnique(props: Props, key: string, v: Value)
    requires UniqueKeys(props)
    ensures UniqueKeys(SetProp(props, key, v))
  {
    var r := SetProp(props, key, v);
    var ks, before := Keys(r), Keys(props);
    forall i, j | 0 <= i < j < |r|
      ensures r[i].0 != r[j].0
    {
      assert r[i].0 == ks[i] && r[j].0 == ks[j];
      if key !in before && j == |props| {
        assert ks == before + [key];
        assert ks[i] == before[i] && ks[j] == key;
      } else if key !in before {
        assert ks == before + [key];
        assert ks[i] == props[i].0 && ks[j] == props[j].0;
      } else {
        assert ks[i] == props[i].0 && ks[j] == props[j].0;
      }
    }
  }

  /**
   `v.key`. Reading a property of null or undefined throws a TypeError (None).
   Primitives carry no own properties here: the keys this code base reads (the
   login and error keys and the product record's fields) are on no primitive's
   prototype.
   */
  function Member(v: Value, key: string): (r: Option<Value>)
    ensures r.None? <==> v.Undefined? || v.Null?
    ensures v.Obj? ==> r == Some(Lookup(v.props, key))
  {
    match v
    case Undefined => None
    case Null => None
    case Obj(props) => Some(Lookup(props, key))
    case _ => Some(Undefined)
  }

  // ---------------------------------------------------------------------------
  // String.prototype.trim

  /** ECMAScript WhiteSpace and LineTerminator code points, which `trim` removes. */
  const SpaceChars: set<char> :=
    { '\t', '\n', '\U{000B}', '\U{000C}', '\r', ' ', '\U{00A0}', '\U{1680}',
      '\U{2028}', '\U{2029}', '\U{202F}', '\U{205F}', '\U{3000}', '\U{FEFF}' }

  predicate IsSpace(c: char) {
    c in SpaceChars || '\U{2000}' <= c <= '\U{200A}'
  }

  predicate IsBlank(s: string) {
    forall i :: 0 <= i < |s| ==> IsSpace(s[i])
  }

  /** How many white-space characters `s` starts with. */
  function LeadingSpaces(s: string): (n: nat)
    ensures n <= |s| && forall k :: 0 <= k < n ==> IsSpace(s[k])
    ensures n < |s| ==> !IsSpace(s[n])
  {
    if s == [] || !IsSpace(s[0]) then 0 else 1 + LeadingSpaces(s[1..])
  }

  /** How many white-space characters `s` ends with. */
  function TrailingSpaces(s: string): (n: nat)
    ensures n <= |s| && forall k :: |s| - n <= k < |s| ==> IsSpace(s[k])
    ensures n < |s| ==> !IsSpace(s[|s| - n - 1])
  {
    if s == [] || !IsSpace(s[|s| - 1]) then 0 else 1 + TrailingSpaces(s[..|s| - 1])
  }

  /** `s.trim()`: what is left after dropping white space at both ends. */
  function Trim(s: string): (r: string)
    ensures |r| <= |s|
    ensures r == [] || (!IsSpace(r[0]) && !IsSpace(r[|r| - 1]))
  {
    var t := s[LeadingSpaces(s)..];
    t[..|t| - TrailingSpaces(t)]
  }

  /** The trimmed string is an infix of the original, bordered by white space only. */
  lemma TrimIsInfix(s: string)
    ensures var r := Trim(s); var i := LeadingSpaces(s);
      && i + |r| <= |s| && r == s[i..i + |r|]
      && IsBlank(s[..i]) && IsBlank(s[i + |r|..])
  {
    TrimSlice(s);
    BlankPrefix(s, LeadingSpaces(s));
    TrimTrailingBlank(s);
  }

  lemma TrimSlice(s: string)
    ensures var i := LeadingSpaces(s); i + |Trim(s)| <= |s| && Trim(s) == s[i..i + |Trim(s)|]
  {
    var i := LeadingSpaces(s);
    var t := s[i..];
    var n := |t| - TrailingSpaces(t);
    assert Trim(s) == t[..n];
    SuffixSlices(s, i, n);
  }

  lemma TrimTrailingBlank(s: string)
    ensures LeadingSpaces(s) + |Trim(s)| <= |s| && IsBlank(s[LeadingSpaces(s) + |Trim(s)|..])
  {
    var i := LeadingSpaces(s);
    var t := s[i..];
    var n := |t| - TrailingSpaces(t);
    assert Trim(s) == t[..n];
    BlankSuffix(t, n);
    SuffixSlices(s, i, n);
  }

  lemma BlankPrefix(s: string, n: nat)
    requires n <= |s| && forall k :: 0 <= k < n ==> IsSpace(s[k])
    ensures IsBlank(s[..n])
  {
  }

  lemma BlankSuffix(s: string, n: nat)
    requires n <= |s| && forall k :: n <= k < |s| ==> IsSpace(s[k])
    ensures IsBlank(s[n..])
  {
    forall k | 0 <= k < |s| - n
      ensures IsSpace(s[n..][k])
    {
      assert s[n..][k] == s[n + k];
    }
  }

  /** Slicing a suffix is slicing the whole string further along. */
  lemma SuffixSlices<T>(s: seq<T>, i: nat, n: nat)
    requires i + n <= |s|
    ensures s[i..][..n] == s[i..i + n] && s[i..][n..] == s[i + n..]
  {
  }

  /** `!s.trim()` holds exactly for strings made of white space only. */
  lemma TrimEmptyIffBlank(s: string)
    ensures Trim(s) == [] <==> IsBlank(s)
  {
    var i := LeadingSpaces(s);
    var r := Trim(s);
    TrimIsInfix(s);
    if r == [] {
      assert s[..i] + s[i..] == s;
    } else {
      assert s[i] == r[0];
    }
  }

  // ---------------------------------------------------------------------------
  // s.split('/').pop()

  /** `s.split('/').pop()`: the text after the last `/`, or all of `s` without one. */
  function LastSegment(s: string): (r: string)
    ensures |r| <= |s| && forall k :: 0 <= k < |r| ==> r[k] == s[|s| - |r| + k]
    ensures '/' !in r
    ensures |r| < |s| ==> s[|s| - |r| - 1] == '/'
  {
    if s == [] || s[|s| - 1] == '/' then []
    else
      var r := LastSegment(s[..|s| - 1]);
      assert s[..|s| - 1][|s| - 1 - |r|..] + [s[|s| - 1]] == s[|s| - 1 - |r|..];
      r + [s[|s| - 1]]
  }

  /** A name without `/` is its own last segment. */
  lemma LastSegmentOfPlainName(s: string)
    requires '/' !in s
    ensures LastSegment(s) == s
  {
  }

  /** The last segment is the longest `/`-free suffix. */
  lemma LastSegmentIsLongestPlainSuffix(s: string, t: string)
    requires |t| <= |s| && t == s[|s| - |t|..] && '/' !in t
    ensures |t| <= |LastSegment(s)|
  {
    var r := LastSegment(s);
    forall j | |s| - |t| <= j < |s|
      ensures s[j] != '/'
    {
      assert s[j] == t[j - (|s| - |t|)];
    }
  }
}

=== FILE: product_form.dfy ===
/**
 The product form: its initial record, loading a product for editing,
 field and category edits, and the save button — validation, the service
 call it dispatches, and how the outcome of that call is reported.
 */
module ProductForm {
  import opened Js
  import opened Http
  import opened Browser
  import opened ProductService
  import opened ImageSet

  /** A category as the categories endpoint returns it. */
  datatype Category = Category(id: Value, subcategorias: seq<Value>)

  datatype Form = Form(
    producto: Props,
    categorias: seq<Category>,
    subcategorias: seq<Value>,
    images: Images,
    error: string,
    loading: bool)

  /** The product record's fields, in the order the form declares them. */
  const ProductKeys: seq<string> := [
    "nombre", "descripcion", "precio", "stock", "estado", "orientado_a",
    "categoria_id", "subcategoria_id", "en_oferta", "porcentaje_descuento"]

  /** A record with the given keys and values, in order. */
  function Record(keys: seq<string>, values: seq<Value>): (r: Props)
    requires |keys| == |values|
    ensures Keys(r) == keys
    ensures forall i :: 0 <= i < |keys| ==> r[i] == (keys[i], values[i])
  {
    seq(|keys|, i requires 0 <= i < |keys| => (keys[i], values[i]))
  }

  /** The default of each field, in the order of `ProductKeys`. */
  const InitialValues: seq<Value> :=
    [Str(""), Str(""), Num(0), Num(0), Str("Nuevo"), Str("Adultos"), Str(""), Str(""), Bool(false), Num(0)]

  const InitialProducto: Props := Record(ProductKeys, InitialValues)

  const LoadFailed := "Error al cargar datos del producto"
  const NameRequired := "El nombre del producto es obligatorio"
  const SaveFailedPrefix := "Error al guardar: "
  const ListPath := "/productos"

  /** The route parameter `id` is truthy: the form edits an existing product. */
  predicate Editing(id: Option<string>) {
    id.Some? && id.value != ""
  }

  lemma ProductKeysDistinct()
    ensures forall i, j :: 0 <= i < j < |ProductKeys| ==> ProductKeys[i] != ProductKeys[j]
  {
  }

  /** A record over the form's fields has each field once. */
  lemma FormRecordUnique(values: seq<Value>)
    requires |values| == |ProductKeys|
    ensures UniqueKeys(Record(ProductKeys, values))
  {
    ProductKeysDistinct();
  }

  /**
   The form as first rendered: the record holds each field's default, there
   are no images, and the spinner shows only when editing.
   */
  function Initial(id: Option<string>): (f: Form)
    ensures f.producto == InitialProducto
    ensures Keys(f.producto) == ProductKeys && UniqueKeys(f.producto)
    ensures f.images == Empty && f.categorias == [] && f.subcategorias == [] && f.error == ""
    ensures f.loading <==> Editing(id)
  {
    FormRecordUnique(InitialValues);
    Form(InitialProducto, [], [], Empty, "", Editing(id))
  }

  /** Each field of a record over the form's fields reads the value given for it. */
  lemma FormRecordReads(values: seq<Value>, i: nat)
    requires |values| == |ProductKeys| && i < |ProductKeys|
    ensures Lookup(Record(ProductKeys, values), ProductKeys[i]) == values[i]
  {
    FormRecordUnique(values);
    LookupUnique(Record(ProductKeys, values), i);
  }

  /**
   Each field of the record a fresh form starts with (`Initial`'s `producto`)
   reads its default: empty texts, no price, stock or discount, not on offer,
   a new item for adults.
   */
  lemma InitialDefaults()
    ensures var p := InitialProducto;
      && Lookup(p, "nombre") == Str("") && Lookup(p, "descripcion") == Str("")
      && Lookup(p, "precio") == Num(0) && Lookup(p, "stock") == Num(0)
      && Lookup(p, "estado") == Str("Nuevo") && Lookup(p, "orientado_a") == Str("Adultos")
      && Lookup(p, "categoria_id") == Str("") && Lookup(p, "subcategoria_id") == Str("")
      && Lookup(p, "en_oferta") == Bool(false) && Lookup(p, "porcentaje_descuento") == Num(0)
  {
    FormRecordReads(InitialValues, 0); FormRecordReads(InitialValues, 1);
    FormRecordReads(InitialValues, 2); FormRecordReads(InitialValues, 3);
    FormRecordReads(InitialValues, 4); FormRecordReads(InitialValues, 5);
    FormRecordReads(InitialValues, 6); FormRecordReads(InitialValues, 7);
    FormRecordReads(InitialValues, 8); FormRecordReads(InitialValues, 9);
  }

  // ---------------------------------------------------------------------------
  // Loading

  /** The values the form copies from a fetched product: the ten fields, read one by one. */
  function CopiedValues(p: Value): (vs: seq<Value>)
    requires !p.Undefined? && !p.Null?
    ensures |vs| == |ProductKeys|
    ensures forall i :: 0 <= i < |ProductKeys| ==> vs[i] == Member(p, ProductKeys[i]).value
  {
    seq(|ProductKeys|, i requires 0 <= i < |ProductKeys| => Member(p, ProductKeys[i]).value)
  }

  /** `cats.find(matches)`, as the index of the first match. */
  function FindFirst(cats: seq<Category>, matches: Category -> bool): (r: Option<nat>)
    ensures r.Some? ==> r.value < |cats| && matches(cats[r.value])
    ensures r.Some? ==> forall j :: 0 <= j < r.value ==> !matches(cats[j])
    ensures r.None? ==> forall j :: 0 <= j < |cats| ==> !matches(cats[j])
  {
    if cats == [] then None
    else if matches(cats[0]) then Some(0)
    else match FindFirst(cats[1..], matches)
      case None => None
      case Some(k) =>
        assert forall j :: 1 <= j < k + 1 ==> cats[j] == cats[1..][j - 1];
        Some(k + 1)
  }

  /** A match found by `FindFirst` is the first match there is. */
  lemma FindFirstFindsFirst(cats: seq<Category>, matches: Category -> bool, k: nat)
    requires k < |cats| && matches(cats[k])
    requires forall j :: 0 <= j < k ==> !matches(cats[j])
    ensures FindFirst(cats, matches) == Some(k)
  {
    var r := FindFirst(cats, matches);
    assert r.Some?;
    assert !(r.value < k);
    assert !(r.value > k);
  }

  /** The category test of `fetchData`: its id is strictly equal to `target`. */
  function HasId(target: Value): Category -> bool {
    (c: Category) => c.id == target
  }

  /** The category test of `handleCategoriaChange`: its id loosely equals the chosen value. */
  function LooselyIdentifies(categoriaId: string, looseEq: (Value, string) -> bool): Category -> bool {
    (c: Category) => looseEq(c.id, categoriaId)
  }

  /**
   `fetchData()`: the categories, then (when editing) the product, its images
   and the subcategories of its category. `fetches` are the product's image
   URLs with what fetching each gave; `parseInt` is JavaScript's `parseInt`.
   Reading a field of a null or undefined product throws into the catch.
   */
  function LoadData(f: Form, id: Option<string>, cats: Outcome<seq<Category>>, product: Outcome<Value>,
                    fetches: seq<Fetch>, parseInt: Value -> Value): (r: Form)
    ensures !r.loading
    ensures cats.Rejected? ==> r == f.(error := LoadFailed, loading := false)
    ensures cats.Resolved? ==> r.categorias == cats.data
    ensures cats.Resolved? && !Editing(id) ==> r == f.(categorias := cats.data, loading := false)
    ensures cats.Resolved? && Editing(id) && (product.Rejected? || product.data.Undefined? || product.data.Null?) ==>
      r == f.(categorias := cats.data, error := LoadFailed, loading := false)
    ensures cats.Resolved? && Editing(id) && product.Resolved? && !product.data.Undefined? && !product.data.Null? ==>
      && r.error == f.error
      && Keys(r.producto) == ProductKeys
      && (forall i :: 0 <= i < |ProductKeys| ==> r.producto[i].1 == Member(product.data, ProductKeys[i]).value)
      && r.images == Hydrate(f.images, fetches)
    // the subcategory choices: those of the first category whose id is `parseInt(categoria_id)`, when there is one
    ensures cats.Resolved? && Editing(id) && product.Resolved? && !product.data.Undefined? && !product.data.Null? ==>
      var categoriaId := Member(product.data, "categoria_id").value;
      var found := if Truthy(categoriaId) then FindFirst(cats.data, HasId(parseInt(categoriaId))) else None;
      r.subcategorias == if found.Some? then cats.data[found.value].subcategorias else f.subcategorias
  {
    match Settle(cats)
    case Threw(_) => f.(error := LoadFailed, loading := false)
    case Returned(categorias) =>
      var listed := f.(categorias := categorias);
      if !Editing(id) then listed.(loading := false)
      else match Settle(product)
        case Threw(_) => listed.(error := LoadFailed, loading := false)
        case Returned(p) =>
          if p.Undefined? || p.Null? then listed.(error := LoadFailed, loading := false)
          else
            var categoriaId := Member(p, "categoria_id").value;
            var found := if Truthy(categoriaId) then FindFirst(categorias, HasId(parseInt(categoriaId))) else None;
            var subcategorias := if found.Some? then categorias[found.value].subcategorias else f.subcategorias;
            listed.(producto := Record(ProductKeys, CopiedValues(p)), images := Hydrate(f.images, fetches),
                    subcategorias := subcategorias, loading := false)
  }

  /** An edited product whose category is listed gets the choices of the first category with that id. */
  lemma LoadSubcategoriesOfFirstMatch(f: Form, id: Option<string>, cats: seq<Category>, p: Value,
                                      fetches: seq<Fetch>, parseInt: Value -> Value, k: nat)
    requires Editing(id) && !p.Undefined? && !p.Null?
    requires Truthy(Member(p, "categoria_id").value)
    requires k < |cats| && cats[k].id == parseInt(Member(p, "categoria_id").value)
    requires forall j :: 0 <= j < k ==> cats[j].id != parseInt(Member(p, "categoria_id").value)
    ensures LoadData(f, id, Resolved(cats), Resolved(p), fetches, parseInt).subcategorias == cats[k].subcategorias
  {
    FindFirstFindsFirst(cats, HasId(parseInt(Member(p, "categoria_id").value)), k);
  }

  /** Without a category, or with one no listed category has, the choices stay as they were. */
  lemma LoadSubcategoriesWithoutMatch(f: Form, id: Option<string>, cats: seq<Category>, p: Value,
                                      fetches: seq<Fetch>, parseInt: Value -> Value)
    requires !p.Undefined? && !p.Null?
    requires Truthy(Member(p, "categoria_id").value) ==>
      forall c :: c in cats ==> c.id != parseInt(Member(p, "categoria_id").value)
    ensures LoadData(f, id, Resolved(cats), Resolved(p), fetches, parseInt).subcategorias == f.subcategorias
  {
  }

  // ---------------------------------------------------------------------------
  // Editing fields

  /** `handleChange(e)`: a checkbox stores its checked state, any other input its value. */
  function HandleChange(f: Form, name: string, inputType: string, value: Value, checked: bool): (r: Form)
    ensures Lookup(r.producto, name) == (if inputType == "checkbox" then Bool(checked) else value)
    ensures name in Keys(f.producto) ==> Keys(r.producto) == Keys(f.producto)
    ensures r.(producto := f.producto) == f
  {
    var v := if inputType == "checkbox" then Bool(checked) else value;
    SetPropReads(f.producto, name, v, name);
    f.(producto := SetProp(f.producto, name, v))
  }

  /** `handleChange` writes one field and leaves every other field as it was. */
  lemma HandleChangeTouchesOneField(f: Form, name: string, inputType: string, value: Value, checked: bool, other: string)
    requires other != name
    ensures Lookup(HandleChange(f, name, inputType, value, checked).producto, other) == Lookup(f.producto, other)
  {
    SetPropReads(f.producto, name, if inputType == "checkbox" then Bool(checked) else value, other);
  }

  /**
   `handleCategoriaChange(e)`: the first category whose id loosely equals the
   chosen value (`looseEq` is JavaScript's `==`) supplies the subcategory
   choices, none found gives none; the category is stored as chosen and the
   subcategory is cleared.
   */
  function HandleCategoriaChange(f: Form, categoriaId: string, looseEq: (Value, string) -> bool): (r: Form)
    ensures Lookup(r.producto, "categoria_id") == Str(categoriaId)
    ensures Lookup(r.producto, "subcategoria_id") == Str("")
    ensures "categoria_id" in Keys(f.producto) && "subcategoria_id" in Keys(f.producto) ==>
      Keys(r.producto) == Keys(f.producto)
    ensures r.categorias == f.categorias && r.images == f.images && r.error == f.error && r.loading == f.loading
  {
    var found := FindFirst(f.categorias, LooselyIdentifies(categoriaId, looseEq));
    var withCategory := SetProp(f.producto, "categoria_id", Str(categoriaId));
    var producto := SetProp(withCategory, "subcategoria_id", Str(""));
    SetPropReads(f.producto, "categoria_id", Str(categoriaId), "subcategoria_id");
    SetPropReads(withCategory, "subcategoria_id", Str(""), "categoria_id");
    f.(subcategorias := if found.Some? then f.categorias[found.value].subcategorias else [],
       producto := producto)
  }

  /** A chosen value that no category loosely equals leaves no subcategory to pick. */
  lemma CategoriaChangeWithoutMatch(f: Form, categoriaId: string, looseEq: (Value, string) -> bool)
    requires forall c :: c in f.categorias ==> !looseEq(c.id, categoriaId)
    ensures HandleCategoriaChange(f, categoriaId, looseEq).subcategorias == []
  {
  }

  /** The subcategory choices are those of the first category the chosen value loosely equals. */
  lemma CategoriaChangeFirstMatch(f: Form, categoriaId: string, looseEq: (Value, string) -> bool, k: nat)
    requires k < |f.categorias| && looseEq(f.categorias[k].id, categoriaId)
    requires forall j :: 0 <= j < k ==> !looseEq(f.categorias[j].id, categoriaId)
    ensures HandleCategoriaChange(f, categoriaId, looseEq).subcategorias == f.categorias[k].subcategorias
  {
    FindFirstFindsFirst(f.categorias, LooselyIdentifies(categoriaId, looseEq), k);
  }

  /** Other fields survive a category change. */
  lemma CategoriaChangeKeepsOtherFields(f: Form, categoriaId: string, looseEq: (Value, string) -> bool, other: string)
    requires other != "categoria_id" && other != "subcategoria_id"
    ensures Lookup(HandleCategoriaChange(f, categoriaId, looseEq).producto, other) == Lookup(f.producto, other)
  {
    var withCategory := SetProp(f.producto, "categoria_id", Str(categoriaId));
    SetPropReads(f.producto, "categoria_id", Str(categoriaId), other);
    SetPropReads(withCategory, "subcategoria_id", Str(""), other);
  }

  // ---------------------------------------------------------------------------
  // Saving

  /** The service call the save button makes. */
  datatype ServiceCall =
    | Create(productData: Props, files: seq<File>)
    | UpdateWithImages(id: string, productData: Props, files: seq<File>)

  /** The form right after the click, and the call it starts, if any. */
  datatype Submission = Submission(form: Form, call: Option<ServiceCall>)

  /** `{...producto, categoria_id: Number(…), subcategoria_id: Number(…)}`; `toNumber` is JavaScript's `Number`. */
  function ProductData(producto: Props, toNumber: Value -> Value): (r: Props)
    ensures Lookup(r, "categoria_id") == toNumber(Lookup(producto, "categoria_id"))
    ensures Lookup(r, "subcategoria_id") == toNumber(Lookup(producto, "subcategoria_id"))
    ensures "categoria_id" in Keys(producto) && "subcategoria_id" in Keys(producto) ==> Keys(r) == Keys(producto)
    ensures forall k :: k != "categoria_id" && k != "subcategoria_id" ==> Lookup(r, k) == Lookup(producto, k)
  {
    var category := toNumber(Lookup(producto, "categoria_id"));
    var subcategory := toNumber(Lookup(producto, "subcategoria_id"));
    var withCategory := SetProp(producto, "categoria_id", category);
    SetPropKeepsOthers(producto, "categoria_id", category);
    SetPropKeepsOthers(withCategory, "subcategoria_id", subcategory);
    SetPropReads(producto, "categoria_id", category, "subcategoria_id");
    SetPropReads(withCategory, "subcategoria_id", subcategory, "categoria_id");
    SetProp(withCategory, "subcategoria_id", subcategory)
  }

  /**
   The synchronous part of `handleSubmit`: a name that is not a string makes
   `trim` throw before anything changes; a blank name is rejected; otherwise
   the error is cleared, the spinner shown and the call made. When editing,
   the files go through the submit filter as written.
   */
  function HandleSubmit(f: Form, id: Option<string>, toNumber: Value -> Value): (r: Submission)
    ensures var nombre := Lookup(f.producto, "nombre");
      r.call.Some? <==> nombre.Str? && !IsBlank(nombre.s)
    ensures !Lookup(f.producto, "nombre").Str? ==> r == Submission(f, None)
    ensures var nombre := Lookup(f.producto, "nombre");
      nombre.Str? && IsBlank(nombre.s) ==> r == Submission(f.(error := NameRequired), None)
    ensures r.call.Some? ==> r.form == f.(error := "", loading := true)
    ensures r.call.Some? ==> (r.call.value.Create? <==> !Editing(id))
    ensures r.call.Some? && r.call.value.UpdateWithImages? ==> r.call.value.id == id.value
    ensures r.call.Some? ==> r.call.value.productData == ProductData(f.producto, toNumber)
  {
    var nombre := Lookup(f.producto, "nombre");
    if !nombre.Str? then Submission(f, None)
    else
      TrimEmptyIffBlank(nombre.s);
      if Trim(nombre.s) == [] then Submission(f.(error := NameRequired), None)
      else
        var data := ProductData(f.producto, toNumber);
        var busy := f.(error := "", loading := true);
        if Editing(id) then
          Submission(busy, Some(UpdateWithImages(id.value, data, UploadBatch(f.images.files, f.images.toDelete))))
        else
          Submission(busy, Some(Create(data, f.images.files)))
  }

  /** Whether creating or editing, the call carries every file the form holds, queued deletions included. */
  lemma SubmitSendsEveryHeldFile(f: Form, id: Option<string>, toNumber: Value -> Value)
    requires var nombre := Lookup(f.producto, "nombre"); nombre.Str? && !IsBlank(nombre.s)
    ensures HandleSubmit(f, id, toNumber).call.Some?
    ensures HandleSubmit(f, id, toNumber).call.value.files == f.images.files
  {
    UploadBatchKeepsEverything(f.images.files, f.images.toDelete);
  }

  /** The request a service call sends. */
  function CallRequest(cell: TokenCell, call: ServiceCall): (req: Request)
    ensures call.Create? ==> req.verb == Post && req.url == AdminApiUrl + "/productos/con-imagenes"
    ensures call.UpdateWithImages? ==> req.verb == Put && req.url == ApiUrl + "/productos/" + call.id
    ensures Attachments(req.body) == call.files
  {
    GenericBodyAttachments(call.productData, call.files);
    match call
    case Create(data, files) => CreateProductRequest(cell, data, files)
    case UpdateWithImages(id, data, files) => UpdateProductWithImagesRequest(cell, id, data, files)
  }

  /**
   Editing a product whose stored image the user removed still uploads that
   image's re-fetched copy, while its name is queued for deletion.
   */
  lemma EditReuploadsRemovedImage(f: Form, id: Option<string>, toNumber: Value -> Value, cell: TokenCell, index: nat)
    requires Editing(id)
    requires index < |f.images.previews| && f.images.previews[index].Stored?
    requires var nombre := Lookup(f.producto, "nombre"); nombre.Str? && !IsBlank(nombre.s)
    ensures var edited := f.(images := RemoveImage(f.images, index));
      var call := HandleSubmit(edited, id, toNumber).call.value;
      && f.images.previews[index].nombre in edited.images.toDelete
      && Attachments(CallRequest(cell, call).body) == f.images.files
  {
    var edited := f.(images := RemoveImage(f.images, index));
    SubmitSendsEveryHeldFile(edited, id, toNumber);
  }

  /** Saving a fresh form is refused for its empty name, and no call is made. */
  lemma FreshFormNeedsName(id: Option<string>, toNumber: Value -> Value)
    ensures HandleSubmit(Initial(id), id, toNumber) == Submission(Initial(id).(error := NameRequired), None)
  {
    FormRecordReads(InitialValues, 0);
  }

  /** What the save button leaves once the call settles, and where it navigates. */
  datatype AfterSubmit = AfterSubmit(form: Form, navigateTo: Option<string>)

  /**
   The asynchronous part of `handleSubmit`: success goes back to the list; a
   failure reports `err.message`, or `JSON.stringify(err)` when that is
   falsy (`stringify`); the spinner stops either way.
   */
  function SubmitSettled(f: Form, o: Outcome<Value>, stringify: Value -> string): (r: AfterSubmit)
    ensures !r.form.loading
    ensures r.navigateTo.Some? <==> o.Resolved?
    ensures o.Resolved? ==> r == AfterSubmit(f.(loading := false), Some(ListPath))
    ensures o.Rejected? ==> r.form == f.(error := r.form.error, loading := false)
    ensures o.Rejected? ==>
      var thrown := Rethrown(o.error);
      var message := Member(thrown, "message").value;
      r.form.error == SaveFailedPrefix + (if Truthy(message) then ToText(message) else stringify(thrown))
  {
    match Settle(o)
    case Returned(_) => AfterSubmit(f.(loading := false), Some(ListPath))
    case Threw(err) =>
      var message := Member(err, "message").value;
      var text := if Truthy(message) then ToText(message) else stringify(err);
      AfterSubmit(f.(error := SaveFailedPrefix + text, loading := false), None)
  }

  /**
   A failure without a server response throws the axios message as a bare
   string; a string has no `message`, so the form shows its JSON encoding.
   */
  lemma NetworkFailureShowsEncodedMessage(f: Form, e: AxiosError, stringify: Value -> string)
    requires e.response.None?
    ensures SubmitSettled(f, Rejected(e), stringify).form.error == SaveFailedPrefix + stringify(Str(e.message))
  {
  }

  // ---------------------------------------------------------------------------
  // The record keeps one value per field

  /** Loading leaves a record with one value per field. */
  lemma LoadKeepsUniqueKeys(f: Form, id: Option<string>, cats: Outcome<seq<Category>>, product: Outcome<Value>,
                            fetches: seq<Fetch>, parseInt: Value -> Value)
    requires UniqueKeys(f.producto)
    ensures UniqueKeys(LoadData(f, id, cats, product, fetches, parseInt).producto)
  {
    if cats.Resolved? && Editing(id) && product.Resolved? && !product.data.Undefined? && !product.data.Null? {
      FormRecordUnique(CopiedValues(product.data));
    }
  }

  /** A field edit never gives the record two values for one field. */
  lemma ChangeKeepsUniqueKeys(f: Form, name: string, inputType: string, value: Value, checked: bool)
    requires UniqueKeys(f.producto)
    ensures UniqueKeys(HandleChange(f, name, inputType, value, checked).producto)
  {
    SetPropKeepsUnique(f.producto, name, if inputType == "checkbox" then Bool(checked) else value);
  }

  /** A category change never gives the record two values for one field. */
  lemma CategoriaChangeKeepsUniqueKeys(f: Form, categoriaId: string, looseEq: (Value, string) -> bool)
    requires UniqueKeys(f.producto)
    ensures UniqueKeys(HandleCategoriaChange(f, categoriaId, looseEq).producto)
  {
    SetPropKeepsUnique(f.producto, "categoria_id", Str(categoriaId));
    SetPropKeepsUnique(SetProp(f.producto, "categoria_id", Str(categoriaId)), "subcategoria_id", Str(""));
  }

  /** The data sent on save has one value per field when the form's record does. */
  lemma ProductDataKeepsUniqueKeys(producto: Props, toNumber: Value -> Value)
    requires UniqueKeys(producto)
    ensures UniqueKeys(ProductData(producto, toNumber))
  {
    var category := toNumber(Lookup(producto, "categoria_id"));
    SetPropKeepsUnique(producto, "categoria_id", category);
    SetPropKeepsUnique(SetProp(producto, "categoria_id", category), "subcategoria_id",
                       toNumber(Lookup(producto, "subcategoria_id")));
  }
}

=== FILE: product_list.dfy ===
/**
 The product list screen: the list it shows, deletion, search, the price and
 stock filters, and the badge and count it renders. Each handler is one step
 from the screen state and the outcome of the request it makes.
 */
module ProductList {
  import opened Js
  import opened Http
  import opened ProductService

  /** A listed product: its id and its stock; the other fields are only displayed. */
  datatype Product = Product(id: int, stock: int)

  /** The three filter inputs, as the text fields hold them. */
  datatype Filters = Filters(minPrice: string, maxPrice: string, minStock: string)

  const NoFilters := Filters("", "", "")

  datatype Screen = Screen(
    products: seq<Product>,
    loading: bool,
    error: string,
    searchQuery: string,
    filters: Filters)

  const LoadFailed := "Error al cargar productos"
  const DeleteFailed := "Error al eliminar producto"
  const SearchFailed := "Error al buscar productos: "
  const NothingFound := "No se encontraron productos con esos filtros"
  const FilterFailed := "Error al aplicar filtros: "

  /** Defaults used by the price filter for an empty bound. */
  const DefaultMinPrice := 0
  const DefaultMaxPrice := 1000000

  /** The screen as first rendered: nothing listed yet, the spinner on, no error, empty inputs. */
  function Initial(): (s: Screen)
    ensures s.products == [] && s.loading && s.error == ""
    ensures s.searchQuery == "" && s.filters.minPrice == "" && s.filters.maxPrice == "" && s.filters.minStock == ""
  {
    Screen([], true, "", "", NoFilters)
  }

  /** The first load: the fetched list is shown, or on failure an empty list with the load error. */
  lemma FirstLoad(o: Outcome<seq<Product>>)
    ensures var s := LoadProducts(Initial(), o);
      && !s.loading
      && (o.Resolved? ==> s.products == o.data && s.error == "")
      && (o.Rejected? ==> s.products == [] && s.error == LoadFailed)
  {
  }

  /**
   `err.message` read off a value a service threw, as text. Only an object
   carries a `message`; a thrown string reads as `undefined`.
   */
  function MessageOf(thrown: Value): (m: string)
    requires !thrown.Undefined? && !thrown.Null?
    ensures thrown.Obj? ==> m == ToText(Lookup(thrown.props, "message"))
    ensures !thrown.Obj? ==> m == "undefined"
  {
    ToText(Member(thrown, "message").value)
  }

  /** `a || b`. */
  function Or(a: Value, b: Value): (r: Value)
    ensures Truthy(a) ==> r == a
    ensures !Truthy(a) ==> r == b
  {
    if Truthy(a) then a else b
  }

  // ---------------------------------------------------------------------------
  // Loading

  /** `loadProducts()`: a fetched list replaces the products; a failure only sets the error. */
  function LoadProducts(s: Screen, o: Outcome<seq<Product>>): (r: Screen)
    ensures o.Resolved? ==> r.products == o.data && r.error == s.error
    ensures o.Rejected? ==> r.products == s.products && r.error == LoadFailed
    ensures !r.loading && r.searchQuery == s.searchQuery && r.filters == s.filters
  {
    match Settle(o)
    case Returned(data) => s.(products := data, loading := false)
    case Threw(_) => s.(error := LoadFailed, loading := false)
  }

  // ---------------------------------------------------------------------------
  // Deleting

  /** `products.filter(product => product.id !== id)`. */
  function WithoutId(products: seq<Product>, id: int): (r: seq<Product>)
    ensures |r| <= |products|
    ensures forall p :: p in r ==> p in products && p.id != id
    ensures forall p :: p in products && p.id != id ==> p in r
  {
    if products == [] then []
    else (if products[0].id != id then [products[0]] else []) + WithoutId(products[1..], id)
  }

  /** The filter keeps relative order: it works piecewise on any split of the list. */
  lemma {:induction false} WithoutIdAppend(a: seq<Product>, b: seq<Product>, id: int)
    ensures WithoutId(a + b, id) == WithoutId(a, id) + WithoutId(b, id)
    decreases |a|
  {
    if a == [] {
      assert a + b == b;
    } else {
      assert (a + b)[0] == a[0];
      assert (a + b)[1..] == a[1..] + b;
      WithoutIdAppend(a[1..], b, id);
      AppendAssoc(if a[0].id != id then [a[0]] else [], WithoutId(a[1..], id), WithoutId(b, id));
    }
  }

  /** Every product with the id goes, every other one stays with its multiplicity. */
  lemma {:induction false} WithoutIdCounts(products: seq<Product>, id: int, q: Product)
    ensures multiset(WithoutId(products, id))[q] == if q.id == id then 0 else multiset(products)[q]
    decreases |products|
  {
    if products != [] {
      var x, rest := products[0], products[1..];
      WithoutIdCounts(rest, id, q);
      assert multiset(products) == multiset{x} + multiset(rest) by { assert products == [x] + rest; }
      if x.id != id {
        assert multiset(WithoutId(products, id)) == multiset{x} + multiset(WithoutId(rest, id));
      }
    }
  }

  /** `handleDelete(id)`: runs only when the user confirms, and drops the product once deleted. */
  function HandleDelete(s: Screen, id: int, confirmed: bool, o: Outcome<Value>): (r: Screen)
    ensures !confirmed ==> r == s
    ensures confirmed && o.Resolved? ==> r == s.(products := WithoutId(s.products, id))
    ensures confirmed && o.Rejected? ==> r == s.(error := DeleteFailed)
  {
    if !confirmed then s
    else match Settle(o)
      case Returned(_) => s.(products := WithoutId(s.products, id))
      case Threw(_) => s.(error := DeleteFailed)
  }

  /** The request a confirmed delete sends: a DELETE of the product's admin URL, without a body. */
  function DeleteRequestFor(cell: Browser.TokenCell, id: int): (r: Request)
    ensures r.verb == Delete && r.url == AdminApiUrl + "/productos/" + IntToString(id)
    ensures r.headers == AuthHeaders(cell) && r.body == []
  {
    DeleteProductRequest(cell, IntToString(id))
  }

  /** Deleting two different products sends requests to two different URLs. */
  lemma DeleteRequestsDiffer(cell: Browser.TokenCell, a: int, b: int)
    requires a != b
    ensures DeleteRequestFor(cell, a).url != DeleteRequestFor(cell, b).url
  {
    var prefix := AdminApiUrl + "/productos/";
    var ua := DeleteRequestFor(cell, a).url;
    var ub := DeleteRequestFor(cell, b).url;
    if ua == ub {
      assert ua[|prefix|..] == IntToString(a);
      assert ub[|prefix|..] == IntToString(b);
      IntToStringInjective(a, b);
    }
  }

  // ---------------------------------------------------------------------------
  // Searching

  /** The request `handleSearch` makes: the full list for a blank query, else a search for the query as typed. */
  function SearchRequest(query: string): (r: Request)
    ensures IsBlank(query) ==> r == GetProductsRequest()
    ensures !IsBlank(query) ==> r == SearchProductsRequest(query)
  {
    TrimEmptyIffBlank(query);
    if Trim(query) == [] then GetProductsRequest() else SearchProductsRequest(query)
  }

  /** `handleSearch()`, given the outcome of the request `SearchRequest` names. */
  function HandleSearch(s: Screen, o: Outcome<seq<Product>>): (r: Screen)
    ensures IsBlank(s.searchQuery) ==> r == LoadProducts(s, o)
    ensures !IsBlank(s.searchQuery) && o.Resolved? ==> r == s.(products := o.data, loading := false)
    ensures !IsBlank(s.searchQuery) && o.Rejected? ==>
      r == s.(error := SearchFailed + MessageOf(Rethrown(o.error)), loading := false)
  {
    TrimEmptyIffBlank(s.searchQuery);
    if Trim(s.searchQuery) == [] then LoadProducts(s, o)
    else match Settle(o)
      case Returned(results) => s.(products := results, loading := false)
      case Threw(err) => s.(error := SearchFailed + MessageOf(err), loading := false)
  }

  /**
   A search that fails without a server response throws the axios message as
   a bare string, which has no `message`: the screen shows `undefined`.
   */
  lemma SearchNetworkFailureShowsUndefined(s: Screen, e: AxiosError)
    requires !IsBlank(s.searchQuery) && e.response.None?
    ensures HandleSearch(s, Rejected(e)).error == SearchFailed + "undefined"
  {
    var thrown := Rethrown(e);
    assert thrown == Str(e.message);
    assert MessageOf(thrown) == "undefined";
  }

  // ---------------------------------------------------------------------------
  // Filtering

  /** The request `handleFilter(filterType)` makes, if any. */
  function FilterRequest(filterType: string, f: Filters): (r: Option<Request>)
    ensures filterType == "price" ==> (r.Some? <==> f.minPrice != "" || f.maxPrice != "")
    ensures filterType == "price" && r.Some? ==>
      r.value == FilterByPriceRequest(
        if f.minPrice != "" then Str(f.minPrice) else Num(DefaultMinPrice),
        if f.maxPrice != "" then Str(f.maxPrice) else Num(DefaultMaxPrice))
    ensures filterType == "stock" ==> (r.Some? <==> f.minStock != "")
    ensures filterType == "stock" && r.Some? ==> r.value == FilterByStockRequest(f.minStock)
    ensures filterType != "price" && filterType != "stock" ==> r == Some(GetProductsRequest())
  {
    if filterType == "price" then
      if Truthy(Str(f.minPrice)) || Truthy(Str(f.maxPrice)) then
        Some(FilterByPriceRequest(Or(Str(f.minPrice), Num(DefaultMinPrice)), Or(Str(f.maxPrice), Num(DefaultMaxPrice))))
      else None
    else if filterType == "stock" then
      if Truthy(Str(f.minStock)) then Some(FilterByStockRequest(f.minStock)) else None
    else Some(GetProductsRequest())
  }

  /**
   `handleFilter(filterType)`, given the outcome of the request `FilterRequest`
   names (ignored when it names none). An empty result, including a skipped
   request, keeps the products and reports that nothing was found.
   */
  function HandleFilter(s: Screen, filterType: string, o: Outcome<seq<Product>>): (r: Screen)
    ensures FilterRequest(filterType, s.filters).None? ==> r == s.(error := NothingFound, loading := false)
    ensures FilterRequest(filterType, s.filters).Some? && o.Resolved? && o.data != [] ==>
      r == s.(products := o.data, loading := false)
    ensures FilterRequest(filterType, s.filters).Some? && o.Resolved? && o.data == [] ==>
      r == s.(error := NothingFound, loading := false)
    ensures FilterRequest(filterType, s.filters).Some? && o.Rejected? ==>
      r == s.(error := FilterFailed + MessageOf(Rethrown(o.error)), loading := false)
    ensures r.products == s.products || r.products != []
  {
    var found := if FilterRequest(filterType, s.filters).None? then Returned([]) else Settle(o);
    match found
    case Returned(filtered) =>
      if |filtered| > 0 then s.(products := filtered, loading := false)
      else s.(error := NothingFound, loading := false)
    case Threw(err) => s.(error := FilterFailed + MessageOf(err), loading := false)
  }

  /** `handleResetFilters()`: clears the three inputs and reloads the list. */
  function HandleResetFilters(s: Screen, o: Outcome<seq<Product>>): (r: Screen)
    ensures r.filters == NoFilters
    ensures r.products == (if o.Resolved? then o.data else s.products)
    ensures r.error == (if o.Resolved? then s.error else LoadFailed)
  {
    LoadProducts(s.(filters := NoFilters), o)
  }

  // ---------------------------------------------------------------------------
  // Rendering decisions

  datatype Badge = Green | Yellow | Red

  /** The colour of a product's stock badge. */
  function StockBadge(stock: int): (b: Badge)
    ensures b == Green <==> stock > 20
    ensures b == Yellow <==> 5 < stock <= 20
    ensures b == Red <==> stock <= 5
  {
    if stock > 20 then Green else if stock > 5 then Yellow else Red
  }

  function Severity(b: Badge): nat {
    match b
    case Green => 0
    case Yellow => 1
    case Red => 2
  }

  /** More stock never gives a more alarming badge. */
  lemma StockBadgeMonotone(a: int, b: int)
    requires a <= b
    ensures Severity(StockBadge(b)) <= Severity(StockBadge(a))
  {
  }

  const Singular := "producto encontrado"
  const Plural := "productos encontrados"

  /** The header line: the number of products and the noun agreeing with it. */
  function CountLabel(n: nat): (r: string)
    ensures |r| > |IntToString(n)| && r[..|IntToString(n)|] == IntToString(n)
    ensures r[|IntToString(n)|] == ' '
  {
    IntToString(n) + " " + (if n == 1 then Singular else Plural)
  }

  /** The label is singular exactly for one product, and its number reads back as the count. */
  lemma CountLabelMeaning(n: nat)
    ensures var r := CountLabel(n); var k := |IntToString(n)|;
      && ParseInt(r[..k]) == Some(n)
      && (r[k + 1..] == Singular <==> n == 1)
  {
    var r := CountLabel(n);
    var k := |IntToString(n)|;
    IntToStringRoundTrip(n);
    assert r[k + 1..] == (if n == 1 then Singular else Plural);
    assert Singular != Plural by {
      assert |Singular| != |Plural|;
    }
  }
}

=== FILE: product_service.dfy ===
/**
 The product REST client: the request each service function sends (method,
 URL, headers, query parameters and multipart body) and the value each one
 returns or throws once axios settles. Sending is not modelled.
 */
module ProductService {
  import opened Js
  import opened Browser
  import opened Http

  const ApiUrl := "https://tienda-kxep.onrender.com/api"
  const AdminApiUrl := "https://tienda-kxep.onrender.com/api/admin"

  /** The form key every image file is sent under. */
  const ImageKey := "imagenes"

  datatype Method = Get | Post | Put | Delete

  datatype Request = Request(
    verb: Method,
    url: string,
    headers: seq<(string, string)>,
    params: Props,
    body: seq<FormEntry>)

  /** What a service function does once its request settles: return the body or throw a value. */
  datatype Settled<+T> = Returned(value: T) | Threw(thrown: Value)

  // ---------------------------------------------------------------------------
  // Errors

  /**
   `error.response?.data || error.message`, the value every service function
   throws when its request fails.
   */
  function Rethrown(e: AxiosError): (v: Value)
    ensures e.response.Some? && Truthy(e.response.value.data) ==> v == e.response.value.data
    ensures !(e.response.Some? && Truthy(e.response.value.data)) ==> v == Str(e.message)
    ensures Truthy(v) || v.Str?
  {
    if e.response.Some? && Truthy(e.response.value.data) then e.response.value.data
    else Str(e.message)
  }

  /** The `try { return response.data } catch { throw … }` shape shared by all services. */
  function Settle<T>(o: Outcome<T>): (r: Settled<T>)
    ensures r.Returned? <==> o.Resolved?
    ensures o.Resolved? ==> r.value == o.data
    ensures r.Threw? ==> r.thrown == Rethrown(o.error)
    ensures r.Threw? ==> !r.thrown.Undefined? && !r.thrown.Null?
  {
    match o
    case Resolved(data) => Returned(data)
    case Rejected(e) => Threw(Rethrown(e))
  }

  // ---------------------------------------------------------------------------
  // Headers

  /** `` `Bearer ${token}` `` for the token read from storage; a missing token prints as `null`. */
  function Bearer(cell: TokenCell): (h: string)
    ensures |h| >= 7 && h[..7] == "Bearer "
    ensures cell.Some? ==> h[7..] == cell.value
    ensures cell.None? ==> h[7..] == "null"
  {
    "Bearer " + (match cell case Some(t) => t case None => "null")
  }

  /** Two stored tokens give the same header only if they are equal. */
  lemma BearerInjective(a: string, b: string)
    ensures Bearer(Some(a)) == Bearer(Some(b)) ==> a == b
  {
    if Bearer(Some(a)) == Bearer(Some(b)) {
      assert a == Bearer(Some(a))[7..];
    }
  }

  /** A missing token cannot be told apart from a stored token spelled `null`. */
  lemma BearerMissingTokenLooksLikeNull()
    ensures Bearer(None) == Bearer(Some("null"))
  {
  }

  /** The headers of the multipart requests: the Authorization header, then the content type. */
  function MultipartHeaders(cell: TokenCell): (hs: seq<(string, string)>)
    ensures |hs| == 2 && hs[0] == ("Authorization", Bearer(cell))
    ensures hs[1] == ("Content-Type", "multipart/form-data")
  {
    [("Authorization", Bearer(cell)), ("Content-Type", "multipart/form-data")]
  }

  /**
   `getAuthHeaders()`: the Authorization header of the multipart requests and
   nothing else, in particular no `Content-Type`.
   */
  function AuthHeaders(cell: TokenCell): (hs: seq<(string, string)>)
    ensures |hs| == 1 && hs == MultipartHeaders(cell)[..1]
    ensures forall h :: h in hs ==> h.0 != "Content-Type"
  {
    [("Authorization", Bearer(cell))]
  }

  // ---------------------------------------------------------------------------
  // Multipart bodies

  function EntryKeys(body: seq<FormEntry>): (ks: seq<string>)
    ensures |ks| == |body|
    ensures forall i :: 0 <= i < |body| ==> ks[i] == body[i].key
  {
    if body == [] then [] else [body[0].key] + EntryKeys(body[1..])
  }

  lemma EntryKeysAppend(a: seq<FormEntry>, b: seq<FormEntry>)
    ensures EntryKeys(a + b) == EntryKeys(a) + EntryKeys(b)
  {
  }

  /** The files a body carries, in order. */
  function Attachments(body: seq<FormEntry>): seq<File> {
    if body == [] then []
    else (if body[0].value.Attachment? then [body[0].value.file] else []) + Attachments(body[1..])
  }

  lemma {:induction false} AttachmentsAppend(a: seq<FormEntry>, b: seq<FormEntry>)
    ensures Attachments(a + b) == Attachments(a) + Attachments(b)
    decreases |a|
  {
    if a != [] {
      var head := if a[0].value.Attachment? then [a[0].value.file] else [];
      assert (a + b)[0] == a[0];
      assert (a + b)[1..] == a[1..] + b;
      AttachmentsAppend(a[1..], b);
      calc {
        Attachments(a + b);
        head + Attachments(a[1..] + b);
        head + (Attachments(a[1..]) + Attachments(b));
        (head + Attachments(a[1..])) + Attachments(b);
      }
    } else {
      assert a + b == b;
    }
  }

  /** One entry per property, in iteration order, its value stringified. */
  function FieldEntries(props: Props): (body: seq<FormEntry>)
    ensures |body| == |props|
    ensures forall i :: 0 <= i < |props| ==> body[i] == FormEntry(props[i].0, Text(ToText(props[i].1)))
  {
    if props == [] then [] else [FormEntry(props[0].0, Text(ToText(props[0].1)))] + FieldEntries(props[1..])
  }

  /** One `imagenes` entry per file, in list order. */
  function ImageEntries(files: seq<File>): (body: seq<FormEntry>)
    ensures |body| == |files|
    ensures forall i :: 0 <= i < |files| ==> body[i] == FormEntry(ImageKey, Attachment(files[i]))
    ensures EntryKeys(body) == seq(|files|, _ => ImageKey)
  {
    if files == [] then [] else [FormEntry(ImageKey, Attachment(files[0]))] + ImageEntries(files[1..])
  }

  lemma {:induction false} FieldEntriesCarryNoFile(props: Props)
    ensures Attachments(FieldEntries(props)) == []
    decreases |props|
  {
    if props != [] {
      FieldEntriesCarryNoFile(props[1..]);
    }
  }

  lemma {:induction false} ImageEntriesCarryFiles(files: seq<File>)
    ensures Attachments(ImageEntries(files)) == files
    decreases |files|
  {
    if files != [] {
      ImageEntriesCarryFiles(files[1..]);
    }
  }

  /** The body of `createProduct`, `createProductWithImages` and `updateProductWithImages`. */
  function GenericBody(props: Props, files: seq<File>): (body: seq<FormEntry>)
    ensures |body| == |props| + |files|
    ensures forall i :: 0 <= i < |props| ==> body[i] == FormEntry(props[i].0, Text(ToText(props[i].1)))
    ensures forall j :: 0 <= j < |files| ==> body[|props| + j] == FormEntry(ImageKey, Attachment(files[j]))
    ensures EntryKeys(body) == Keys(props) + seq(|files|, _ => ImageKey)
  {
    var fields := FieldEntries(props);
    EntryKeysAppend(fields, ImageEntries(files));
    assert EntryKeys(fields) == Keys(props);
    fields + ImageEntries(files)
  }

  /** Exactly the given files travel in a generic body, in order, whatever the record holds. */
  lemma GenericBodyAttachments(props: Props, files: seq<File>)
    ensures Attachments(GenericBody(props, files)) == files
  {
    AttachmentsAppend(FieldEntries(props), ImageEntries(files));
    FieldEntriesCarryNoFile(props);
    ImageEntriesCarryFiles(files);
  }

  /** `createProduct(productData, imageFiles)`. */
  function CreateProductRequest(cell: TokenCell, productData: Props, imageFiles: seq<File>): (r: Request)
    ensures r.verb == Post && r.url == AdminApiUrl + "/productos/con-imagenes"
    ensures r.headers == [("Authorization", Bearer(cell)), ("Content-Type", "multipart/form-data")]
    ensures r.params == []
    ensures r.body == GenericBody(productData, imageFiles)
  {
    Request(Post, AdminApiUrl + "/productos/con-imagenes", MultipartHeaders(cell), [],
            GenericBody(productData, imageFiles))
  }

  /** `createProductWithImages(productData, files)` sends the same request as `createProduct`. */
  function CreateProductWithImagesRequest(cell: TokenCell, productData: Props, files: seq<File>): (r: Request)
    ensures r == CreateProductRequest(cell, productData, files)
  {
    Request(Post, AdminApiUrl + "/productos/con-imagenes", MultipartHeaders(cell), [],
            FieldEntries(productData) + ImageEntries(files))
  }

  /** `updateProductWithImages(id, productData, imagenes)`: note the non-admin URL. */
  function UpdateProductWithImagesRequest(cell: TokenCell, id: string, productData: Props, imagenes: seq<File>): (r: Request)
    ensures r.verb == Put && r.url == ApiUrl + "/productos/" + id
    ensures r.headers == [("Authorization", Bearer(cell)), ("Content-Type", "multipart/form-data")]
    ensures r.params == []
    ensures r.body == GenericBody(productData, imagenes)
  {
    Request(Put, "https://tienda-kxep.onrender.com/api/productos/" + id, MultipartHeaders(cell), [],
            GenericBody(productData, imagenes))
  }

  // ---------------------------------------------------------------------------
  // updateProduct: a fixed field list

  const UpdateScalarKeys: seq<string> :=
    ["nombre", "descripcion", "precio", "stock", "estado", "orientado_a", "subcategoria_id"]

  const OfferKeys: seq<string> := ["en_oferta", "porcentaje_descuento"]

  /** `formData.append(k, String(productData[k]))` for each key, in order. */
  function ScalarEntries(productData: Props, keys: seq<string>): (body: seq<FormEntry>)
    ensures |body| == |keys|
    ensures forall i :: 0 <= i < |keys| ==> body[i] == FormEntry(keys[i], Text(ToText(Lookup(productData, keys[i]))))
    ensures EntryKeys(body) == keys
  {
    seq(|keys|, i requires 0 <= i < |keys| => FormEntry(keys[i], Text(ToText(Lookup(productData, keys[i])))))
  }

  /** The offer block: present only when `en_oferta` is truthy, and then text entries under the two offer keys. */
  function OfferEntries(productData: Props): (body: seq<FormEntry>)
    ensures |body| == if Truthy(Lookup(productData, "en_oferta")) then |OfferKeys| else 0
    ensures forall i :: 0 <= i < |body| ==> body[i].key == OfferKeys[i] && body[i].value.Text?
  {
    if Truthy(Lookup(productData, "en_oferta")) then
      [FormEntry("en_oferta", Text("true")),
       FormEntry("porcentaje_descuento", Text(ToText(Lookup(productData, "porcentaje_descuento"))))]
    else []
  }

  /** The body `updateProduct` builds: the scalar fields first, the image files last, the offer block between. */
  function UpdateBody(productData: Props, imageFiles: seq<File>): (body: seq<FormEntry>)
    ensures |body| == |UpdateScalarKeys| + |OfferEntries(productData)| + |imageFiles|
    ensures body[..|UpdateScalarKeys|] == ScalarEntries(productData, UpdateScalarKeys)
    ensures body[|body| - |imageFiles|..] == ImageEntries(imageFiles)
  {
    ScalarEntries(productData, UpdateScalarKeys) + OfferEntries(productData) + ImageEntries(imageFiles)
  }

  /**
   The keys of the `updateProduct` body: the seven scalar keys in their fixed
   order, the two offer keys exactly when `en_oferta` is truthy, then one
   `imagenes` per file.
   */
  lemma UpdateBodyKeySequence(productData: Props, imageFiles: seq<File>)
    ensures var offer := Truthy(Lookup(productData, "en_oferta"));
      EntryKeys(UpdateBody(productData, imageFiles))
        == UpdateScalarKeys + (if offer then OfferKeys else []) + seq(|imageFiles|, _ => ImageKey)
  {
    var scalars := ScalarEntries(productData, UpdateScalarKeys);
    var offers := OfferEntries(productData);
    var images := ImageEntries(imageFiles);
    assert UpdateBody(productData, imageFiles) == scalars + offers + images;
    EntryKeysAppend(scalars + offers, images);
    EntryKeysAppend(scalars, offers);
    assert EntryKeys(offers) == if Truthy(Lookup(productData, "en_oferta")) then OfferKeys else [];
  }

  /**
   Each `updateProduct` scalar entry carries `String(productData[key])`; with a
   truthy `en_oferta` the offer entries carry `'true'` and the discount.
   */
  lemma UpdateBodyValues(productData: Props, imageFiles: seq<File>)
    ensures var body := UpdateBody(productData, imageFiles);
      && |body| >= |UpdateScalarKeys|
      && (forall i :: 0 <= i < |UpdateScalarKeys| ==>
            body[i] == FormEntry(UpdateScalarKeys[i], Text(ToText(Lookup(productData, UpdateScalarKeys[i])))))
      && (Truthy(Lookup(productData, "en_oferta")) ==>
            && body[7] == FormEntry("en_oferta", Text("true"))
            && body[8] == FormEntry("porcentaje_descuento", Text(ToText(Lookup(productData, "porcentaje_descuento")))))
  {
    var scalars := ScalarEntries(productData, UpdateScalarKeys);
    var head := scalars + OfferEntries(productData);
    var body := UpdateBody(productData, imageFiles);
    forall i | 0 <= i < |UpdateScalarKeys|
      ensures body[i] == FormEntry(UpdateScalarKeys[i], Text(ToText(Lookup(productData, UpdateScalarKeys[i]))))
    {
      assert body[i] == head[i] == scalars[i];
    }
    if Truthy(Lookup(productData, "en_oferta")) {
      assert body[7] == head[7] == OfferEntries(productData)[0];
      assert body[8] == head[8] == OfferEntries(productData)[1];
    }
  }

  /** What the key at each position of the `updateProduct` body can be. */
  lemma UpdateBodyKeyAt(productData: Props, imageFiles: seq<File>, j: int)
    requires 0 <= j < |UpdateBody(productData, imageFiles)|
    ensures var offer := Truthy(Lookup(productData, "en_oferta"));
      var k := EntryKeys(UpdateBody(productData, imageFiles))[j];
      && (k in UpdateScalarKeys || (offer && k in OfferKeys) || k == ImageKey)
      && k != "categoria_id"
      && (!offer ==> k != "en_oferta" && k != "porcentaje_descuento")
  {
    var scalars := ScalarEntries(productData, UpdateScalarKeys);
    var offers := OfferEntries(productData);
    var images := ImageEntries(imageFiles);
    var body := UpdateBody(productData, imageFiles);
    assert body == scalars + offers + images;
    assert EntryKeys(body)[j] == body[j].key;
    UpdateKeyGroupsApart();
    if j < |scalars| {
      assert body[j] == scalars[j];
      assert body[j].key in UpdateScalarKeys;
    } else if j < |scalars| + |offers| {
      assert body[j] == offers[j - |scalars|];
      assert body[j].key in OfferKeys;
    } else {
      assert body[j] == images[j - |scalars| - |offers|];
    }
  }

  /** The scalar keys, the offer keys and `imagenes` name different fields, and none is `categoria_id`. */
  lemma UpdateKeyGroupsApart()
    ensures "categoria_id" !in UpdateScalarKeys && "categoria_id" !in OfferKeys && "categoria_id" != ImageKey
    ensures "en_oferta" !in UpdateScalarKeys && "porcentaje_descuento" !in UpdateScalarKeys
    ensures "en_oferta" != ImageKey && "porcentaje_descuento" != ImageKey
  {
  }

  /** `updateProduct` never sends `categoria_id`, whatever the record holds. */
  lemma UpdateBodyOmitsCategory(productData: Props, imageFiles: seq<File>)
    ensures "categoria_id" !in EntryKeys(UpdateBody(productData, imageFiles))
  {
    var ks := EntryKeys(UpdateBody(productData, imageFiles));
    forall j | 0 <= j < |ks|
      ensures ks[j] != "categoria_id"
    {
      UpdateBodyKeyAt(productData, imageFiles, j);
    }
  }

  /** Every key `updateProduct` sends is a scalar key, an offer key or `imagenes`. */
  lemma UpdateBodyKnownKeys(productData: Props, imageFiles: seq<File>)
    ensures forall k :: k in EntryKeys(UpdateBody(productData, imageFiles)) ==>
      k in UpdateScalarKeys || k in OfferKeys || k == ImageKey
  {
    var ks := EntryKeys(UpdateBody(productData, imageFiles));
    forall j | 0 <= j < |ks|
      ensures ks[j] in UpdateScalarKeys || ks[j] in OfferKeys || ks[j] == ImageKey
    {
      UpdateBodyKeyAt(productData, imageFiles, j);
    }
  }

  /** The offer keys are sent exactly when `en_oferta` is truthy. */
  lemma UpdateBodyOfferKeys(productData: Props, imageFiles: seq<File>)
    ensures var ks := EntryKeys(UpdateBody(productData, imageFiles));
      && ("en_oferta" in ks <==> Truthy(Lookup(productData, "en_oferta")))
      && ("porcentaje_descuento" in ks <==> Truthy(Lookup(productData, "en_oferta")))
  {
    var ks := EntryKeys(UpdateBody(productData, imageFiles));
    if Truthy(Lookup(productData, "en_oferta")) {
      UpdateBodyKeySequence(productData, imageFiles);
      assert ks[7] == "en_oferta" && ks[8] == "porcentaje_descuento";
    } else {
      forall j | 0 <= j < |ks|
        ensures ks[j] != "en_oferta" && ks[j] != "porcentaje_descuento"
      {
        UpdateBodyKeyAt(productData, imageFiles, j);
      }
    }
  }

  /** `updateProduct` also carries exactly the given files, after every scalar field. */
  lemma UpdateBodyAttachments(productData: Props, imageFiles: seq<File>)
    ensures var body := UpdateBody(productData, imageFiles);
      && Attachments(body) == imageFiles
      && body[|body| - |imageFiles|..] == ImageEntries(imageFiles)
  {
    var scalars := ScalarEntries(productData, UpdateScalarKeys);
    var offer := OfferEntries(productData);
    var body := UpdateBody(productData, imageFiles);
    assert body[|scalars + offer|..] == ImageEntries(imageFiles);
    ScalarsCarryNoFile(productData, UpdateScalarKeys);
    assert Attachments(offer) == [] by {
      if offer != [] {
        assert offer[1..][1..] == [];
        assert Attachments(offer[1..]) == [] + Attachments(offer[1..][1..]);
      }
    }
    AttachmentsAppend(scalars, offer);
    AttachmentsAppend(scalars + offer, ImageEntries(imageFiles));
    ImageEntriesCarryFiles(imageFiles);
  }

  lemma {:induction false} ScalarsCarryNoFile(productData: Props, keys: seq<string>)
    ensures Attachments(ScalarEntries(productData, keys)) == []
    decreases |keys|
  {
    var body := ScalarEntries(productData, keys);
    if keys != [] {
      ScalarsCarryNoFile(productData, keys[1..]);
      assert body[1..] == ScalarEntries(productData, keys[1..]);
      assert body[0].value.Text?;
    }
  }

  /** `updateProduct(id, productData, imageFiles)`: the fixed field list, to the admin URL. */
  function UpdateProductRequest(cell: TokenCell, id: string, productData: Props, imageFiles: seq<File>): (r: Request)
    ensures r.verb == Put && r.url == AdminApiUrl + "/productos/" + id
    ensures r.headers == [("Authorization", Bearer(cell)), ("Content-Type", "multipart/form-data")]
    ensures r.params == []
    ensures r.body == UpdateBody(productData, imageFiles)
    ensures Attachments(r.body) == imageFiles
  {
    UpdateBodyAttachments(productData, imageFiles);
    Request(Put, AdminApiUrl + "/productos/" + id, MultipartHeaders(cell), [], UpdateBody(productData, imageFiles))
  }

  /** The two ways of updating a product reach different endpoints: only `updateProduct` uses the admin API. */
  lemma UpdateEndpointsDiffer(cell: TokenCell, id: string, productData: Props, files: seq<File>)
    ensures UpdateProductRequest(cell, id, productData, files).url
         != UpdateProductWithImagesRequest(cell, id, productData, files).url
  {
    var admin := UpdateProductRequest(cell, id, productData, files).url;
    var public := UpdateProductWithImagesRequest(cell, id, productData, files).url;
    assert admin[|ApiUrl| + 1] == 'a';
    assert public[|ApiUrl| + 1] == 'p';
  }

  // ---------------------------------------------------------------------------
  // Other requests

  /** `deleteProduct(id)`: authorised with `getAuthHeaders()`, no body. */
  function DeleteProductRequest(cell: TokenCell, id: string): (r: Request)
    ensures r.verb == Delete && r.url == AdminApiUrl + "/productos/" + id
    ensures r.headers == AuthHeaders(cell) && r.params == [] && r.body == []
  {
    Request(Delete, AdminApiUrl + "/productos/" + id, AuthHeaders(cell), [], [])
  }

  /** `getProducts()`: the public product list, unauthenticated. */
  function GetProductsRequest(): (r: Request)
    ensures r.verb == Get && r.url == ApiUrl + "/productos"
    ensures r.headers == [] && r.params == [] && r.body == []
  {
    Request(Get, ApiUrl + "/productos", [], [], [])
  }

  /** `searchProducts(query)` sends the query as given, under `term`. */
  function SearchProductsRequest(query: string): (r: Request)
    ensures r.verb == Get && r.url == ApiUrl + "/productos/buscar"
    ensures r.params == [("term", Str(query))] && r.headers == [] && r.body == []
  {
    Request(Get, ApiUrl + "/productos/buscar", [], [("term", Str(query))], [])
  }

  /** `filterByPrice(min, max)` sends both bounds as given, under `min` and `max`. */
  function FilterByPriceRequest(min: Value, max: Value): (r: Request)
    ensures r.verb == Get && r.url == ApiUrl + "/productos/filtrar/precio"
    ensures r.params == [("min", min), ("max", max)] && r.headers == [] && r.body == []
  {
    Request(Get, ApiUrl + "/productos/filtrar/precio", [], [("min", min), ("max", max)], [])
  }

  /** `filterByStock(minStock)` sends the bound under `stock`. */
  function FilterByStockRequest(minStock: string): (r: Request)
    ensures r.verb == Get && r.url == ApiUrl + "/productos/filtrar/stock"
    ensures r.params == [("stock", Str(minStock))] && r.headers == [] && r.body == []
  {
    Request(Get, ApiUrl + "/productos/filtrar/stock", [], [("stock", Str(minStock))], [])
  }
}
